=== FILE: README.md ===
# litRPG_Manager templating core, in Dafny

litRPG_Manager turns a text document with embedded `$...$` commands into
output text. The document is read by `parseFile`. Each `$` closes the current
span: spans alternate between literal text and command text, starting with
text. A command span is split on spaces by `parseCommand` into one of `let`,
`set`, `add`, `subtract` (a variable name and an `i32`) or `write` (a variable
name). `run` then walks the items left to right against a variable store
(`Storage`, a map from names to `i32`). Text is copied to the output. `write`
appends the decimal value of a variable. The first error ends the run, and the
store keeps the changes made before it.

The repository's tests expect more than this code implements:
- `src/parser/tests.rs:6-8` imports an expression tokenizer and parser that do not exist in the source;
- `src/parser/tests.rs:91-102` expects `parseCommand` to return several `;`-separated commands.

The model follows the code:
- one command per region, as the signature at `src/parser/mod.rs:109` returns;
- words split on the space character only (`src/parser/mod.rs:110`), so tabs and newlines stay inside words;
- `write` takes exactly one variable name (`src/parser/mod.rs:151-153`).

The model is a set of pure functions over immutable datatypes:

- `Wrappers`: `Option` and `Result`; `:-` plays the part of Rust's `?`.
- `Decimal`: `i32`, `i32::to_string` and `str::parse::<i32>` with its error kinds.
- `Strings`: `str::split` on one character, the reverse join, and the word split of `parseCommand`.
- `Errors`: the three error enums, their `From` conversions and `Display` messages.
- `Types`: `Content`, `Command` and their `Display` renderings.
- `Util`: the generic "modify an existing entry" helper.
- `Engine`: `Storage`. Each `&mut self` method returns what it reports together with the store as the caller sees it afterwards.
- `Utf8`: byte offsets of character boundaries, and `str::get` on byte ranges.
- `Document`: the document scan of `parseFile`, with the command parser as a parameter.
  - It is proved equal to a functional description: split at every `$`, alternate text and command, keep the last span only when it is non-empty.
  - It also states what that description promises.
- `Parser`: `parseCommand`, and `parseFile` both as written and corrected.
- `Interpreter`: `run` as a fold that threads the store.
- `Pipeline`: parsing followed by running, with errors lifted into `Error`.

## Model

`parseFile` slices with byte offsets that are really character counts (see
"## Findings"). The model therefore has two scans:
- `Parser.ParseFileAsWritten` is the code as written;
- `Parser.ParseFile` is the corrected scan.

The `Parser.ParseFile*`, `Parser.ParseDocumentSource`, `Parser.UnclosedCommand`
and `Pipeline.Process` rows are about the corrected scan. `Parser.ParseFileAsWrittenOnAscii`
and `Pipeline.ProcessAsWrittenOnAscii` carry them over to the program as written,
for ASCII documents.

| member | source | states |
|---|---|---|
| `Decimal.IntToString` | src/interpreter/mod.rs:28-34 | The text `write` appends for a value is non-empty. It starts with `-` exactly when the value is negative. The rest is digits. |
| `Decimal.NatToStringValue` | src/interpreter/mod.rs:30 | The digits rendered for a natural number denote that number. |
| `Decimal.ParseIntToString` | src/interpreter/mod.rs:30 | The decimal text of every `i32` parses back to the same value: what `write` prints is what a command's number word means. |
| `Decimal.IntToStringInjective` | src/interpreter/mod.rs:30 | Distinct values are written as distinct texts. |
| `Decimal.ParseI32` | src/parser/mod.rs:133 | Parsing a number word fails with the `Empty` kind exactly when the word is empty. |
| `Decimal.ParseI32Accepts` | src/parser/mod.rs:133-149 | A number word is accepted exactly when it is an optional sign and one or more digits denoting a value in the `i32` range. It then yields that value. |
| `Strings.Words` | src/parser/mod.rs:110 | Every word of a command span is non-empty and holds no space. |
| `Strings.NonEmptyContents` | src/parser/mod.rs:110 | A word is kept exactly when it is a non-empty piece of the split. |
| `Strings.NonEmptyConcat` | src/parser/mod.rs:110 | Filtering a concatenation filters each part and concatenates the results, so the kept pieces stay in their order with their multiplicity; with `Strings.NonEmptySingle` this pins the filter down piece by piece. |
| `Strings.WordsOfJoin` | src/parser/mod.rs:110 | Words joined with single spaces split back into the same words. |
| `Strings.WordsOfSpaceFree` | src/parser/mod.rs:110 | Text without a space has one word, or none when it is empty. |
| `Errors.ConversionsKeepFamily` | src/types/error.rs:29-51 | A run error becomes `Runtime` and a parse error becomes `Parse`. An integer-parse failure becomes `NumberParsing` of its cause. The message names the family. The two conversions never collide. |
| `Errors.RunErrMessageDecodes` | src/types/error.rs:88-103 | Each run error has a fixed message of its own: the error is recovered from its message. |
| `Errors.FixedMessageDecodes` | src/types/error.rs:71-78 | The four fixed parse-error messages are recognised as their errors. None starts like a payload-carrying message. |
| `Errors.DecodeUnrecognizedCommand` | src/types/error.rs:79-80 | The message of `UnrecognizedCommand` embeds the command, and the command can be read back out of it. |
| `Errors.DecodeNumberParsing` | src/types/error.rs:81-82 | The message of `NumberParsing` quotes the cause, and the cause can be read back out of it. |
| `Errors.ParsingErrMessageDecodes` | src/types/error.rs:63-86 | Every parse error, payload included, is recovered from its message. |
| `Errors.ErrorMessageInjective` | src/types/error.rs:53-61 | The family prefix and the inner message together identify the error: different errors have different messages. |
| `Types.CommandDisplayFormats` | src/types/mod.rs:30-44 | The rendering of each command, word for word, inside the `[Command]` frame. `Add` and `Subtract` put the value before the name. |
| `Types.ContentDisplayShape` | src/types/mod.rs:21-28 | Text renders as itself. A command renders inside the command frame. |
| `Types.CommandDisplayInjective` | src/types/mod.rs:30-44 | Commands whose names hold no space render differently when they differ. |
| `Util.ModifyVariable` | src/util.rs:13-26 | On a present key it succeeds and stores `func` of the old value. On an absent key it returns the caller's error and leaves the map as it was. It never changes the key set or any other entry. |
| `Engine.Storage.GetValue` | src/types/engine.rs:44-49 | Succeeds exactly on a present name, with the stored value. Otherwise it fails with `TriedToGetNonexistentVariable`. |
| `Engine.Storage.CreateVariable` | src/types/engine.rs:20-28 | The name always ends up holding the new value, and every other name is untouched. The call succeeds exactly when the name was absent; otherwise it reports `TriedToInitializeExistingVariable`. |
| `Engine.Storage.ModifyVariable` | src/types/engine.rs:30-42 | A present name gets `func` of its value. An absent name fails with `TriedToModifyNonexistentVariable` and leaves the store unchanged. The key set and the other names are never changed. |
| `Engine.NewAndClearAreEmpty` | src/types/engine.rs:12-18 | A new store and a cleared store are the same empty store. On it, reads and updates fail and creation succeeds on every name. |
| `Engine.CreateTwiceFails` | src/types/engine.rs:25-27 | Creating a name twice fails the second time, and the second value is the one stored. |
| `Engine.ModifyMatchesUtil` | src/types/engine.rs:30-42 | The store's update is the generic helper with `TriedToModifyNonexistentVariable` as its error. |
| `Utf8.BoundaryIff` | src/parser/mod.rs:20 | A byte offset is recognised as the boundary before character `m` exactly when the characters before `m` take that many bytes. |
| `Utf8.Get` | src/parser/mod.rs:18-23 | `str::get` returns a slice exactly when both byte offsets are character boundaries in order. The slice is then the characters between them. |
| `Utf8.AsciiGet` | src/parser/mod.rs:18-23 | On ASCII text `str::get` fails only on a backwards or out-of-range cut, and otherwise slices by character position. |
| `Document.ByteGetterOnAscii` | src/parser/mod.rs:18-23 | On ASCII text the byte-offset getter cuts exactly where a character-position getter does. |
| `Document.ScanComputesSegments` | src/parser/mod.rs:25-63 | The loop invariant of the scan: the items found so far, followed by the segmentation of the rest, are the final result, so the scan computes the functional description. |
| `Document.SegmentOk` | src/parser/mod.rs:34-62 | Segmentation succeeds exactly when the last span is text (no command left open) and every command span closed by a `$` parses. |
| `Document.SegmentItems` | src/parser/mod.rs:34-61 | One item per `$`, in order, alternating text and command: the verbatim span or its parsed command. The last span is a further item only when it is non-empty. |
| `Document.SegmentFailsAt` | src/parser/mod.rs:38-44 | The first closed command span that does not parse makes the whole result that span's error. |
| `Document.SegmentLeftOpen` | src/parser/mod.rs:54-57 | When every closed command parses, a last span that is a command gives `CommandLeftOpen`. |
| `Document.SegmentReadsBack` | src/parser/mod.rs:34-62 | Spans that alternate text and command text, whose command spans parse as given commands, segment to exactly those items. |
| `Parser.ParseCommand` | src/parser/mod.rs:109-157 | A parsed command's name is a non-empty word without spaces. A span without words is `InvalidNumberOfArguments`. |
| `Parser.ParseCommandErrors` | src/parser/mod.rs:116-155 | Each failure: a keyword with the wrong number of words is `InvalidNumberOfArguments`, checked before the number. A bad number word is `NumberParsing` of its cause. An unknown keyword is `UnrecognizedCommand` of it, whatever follows. |
| `Parser.ParseCommandSound` | src/parser/mod.rs:109-157 | A span parses exactly when its words are a value keyword, a name and an `i32` word, or `write` and a name. The command is then determined by those words alone: keyword, name and the value the number word denotes, whatever the spacing or the spelling of the number. |
| `Parser.ParseCommandSource` | src/parser/mod.rs:109-157 | Every command whose name is a word is parsed back from its canonical text. |
| `Parser.LetMissingValue` | src/parser/tests.rs:74-77 | `let a` is `InvalidNumberOfArguments`. |
| `Parser.UnknownKeyword` | src/parser/tests.rs:79-82 | `another test whatever` is `UnrecognizedCommand("another")`. |
| `Parser.ParseFileMeaning` | src/parser/mod.rs:15-63 | The (corrected) document scan computes the functional description: the split at `$`, segmented text first. |
| `Parser.ParseFileAsWrittenOnAscii` | src/parser/mod.rs:15-63 | On ASCII documents the scan as written also computes the functional description. |
| `Parser.ParseFileNoDollar` | src/parser/mod.rs:59-62 | A document without `$` is no item when empty, and otherwise one text item holding the whole document. |
| `Parser.LastSpanParity` | src/parser/mod.rs:46-57 | The scan ends inside a command exactly when the document has an odd number of `$`. |
| `Parser.ParseFileOk` | src/parser/mod.rs:34-62 | A document parses exactly when it has an even number of `$` and every command span parses. |
| `Parser.ParseFileOddDollars` | src/parser/mod.rs:54-57 | An odd number of `$` is always an error. It is `CommandLeftOpen` unless a command span fails first. |
| `Parser.ParseFileItems` | src/parser/mod.rs:34-61 | The spans between `$`, rejoined with `$`, are the document, and none holds a `$`. Each `$` yields one item: the verbatim text, or the parsed command, alternating from text. A trailing text item appears only when characters follow the last `$`. |
| `Parser.ParseFileFirstError` | src/parser/mod.rs:38-44 | The first command span that does not parse is the document's error, and no items are returned. |
| `Parser.ParseDocumentSource` | src/parser/mod.rs:15-63 | Writing well-formed items back as a document and parsing it gives the items back. |
| `Parser.UnclosedCommand` | src/parser/tests.rs:107-108 | A document that opens a command at its start and never closes it fails with `CommandLeftOpen`. |
| `Parser.AsWrittenSplitsCharacter` | src/parser/mod.rs:18-23 | The scan as written reports `StringOverflow` for the one-character document `é`. The corrected scan returns it as text. |
| `Parser.AsWrittenDropsText` | src/parser/mod.rs:59-60 | The scan as written returns `é` for the document `éa`, dropping the `a`. The corrected scan returns `éa`. |
| `Interpreter.Step` | src/interpreter/mod.rs:8-35 | One item, in terms of the variable table. Text is output and changes nothing. `let` stores its value and fails on a name already present. `set`, `add` and `subtract` replace, add to or subtract from a present value, and fail on an absent name without changing anything. `write` outputs the decimal value or fails on an absent name, never changing the store. |
| `Interpreter.RunFromOutput` | src/interpreter/mod.rs:5-38 | The output accumulated by the loop only ever sits in front of what the rest of the run produces. |
| `Interpreter.RunCons` | src/interpreter/mod.rs:7-36 | A failing first item is the outcome of the run, with the store it leaves. Otherwise its output precedes the rest's, which runs on the store it leaves. |
| `Interpreter.RunAppend` | src/interpreter/mod.rs:7-38 | Running a concatenation is running the first part, then, if it succeeded, the second on the store the first leaves, outputs in order. |
| `Interpreter.RunFirstError` | src/interpreter/mod.rs:35 | The first failing item decides the run. The changes of the items before it stay, and the items after it are not run. |
| `Interpreter.RunTextOnly` | src/interpreter/mod.rs:9-13 | A list of text items outputs their in-order concatenation and leaves the store alone. |
| `Interpreter.RunKeys` | src/interpreter/mod.rs:16-27 | A run never removes a variable, and only `let` items add names. |
| `Interpreter.FreshStoreExamples` | src/interpreter/tests.rs:12-27 | On an empty store, `add` and `write` of an unknown name fail with their own errors and leave the store empty. |
| `Interpreter.SessionOutput` | src/interpreter/tests.rs:31-45 | `let a`, `write`, `add b`, `write`, `set c`, `write`, `subtract d`, `write` on a fresh store output `a`, `a+b`, `c` and `c-d`. |
| `Interpreter.SessionExample` | src/interpreter/tests.rs:31-45 | With 1, 1, 10 and 5 that session outputs `12105`. |
| `Interpreter.LetOnExistingExample` | src/interpreter/tests.rs:47-57 | A run does not reset the store: `let` on a name created before the run fails with `TriedToInitializeExistingVariable`. |
| `Pipeline.Process` | src/types/error.rs:29-39 | Parsing then running: a parse error is `Parse` and leaves the store alone, and a run error is `Runtime`. The result succeeds exactly when both halves do, and its output is then the run's output. The store is the one the run leaves. |
| `Pipeline.DollarFreeDocument` | src/parser/mod.rs:59-62 | With the corrected scan, a document without `$` is output unchanged on any store, and the store is unchanged. |
| `Pipeline.ProcessAsWritten` | src/types/error.rs:29-39 | `parseFile` as written followed by `run` on the same store, as src/tests.rs:26 composes them, with each half's error lifted by the `From` conversions: a parse error is `Parse` and leaves the store alone, and a run error is `Runtime`. The result succeeds exactly when both halves do, and its output is then the run's output. The store is the one the run leaves. |
| `Pipeline.ProcessAsWrittenOnAscii` | src/parser/mod.rs:15-63 | On ASCII documents the program's pipeline needs the same range condition as `Process` and gives the same result. |
| `Pipeline.AsciiDollarFreeDocument` | src/tests.rs:24-29 | Parsing as written then running outputs an ASCII document without `$` unchanged, on any store, and leaves the store unchanged. |
| `Pipeline.AsWrittenRejectsCharacter` | src/parser/mod.rs:18-23 | Beyond ASCII the two differ. The program reports the `$`-free document `é` as `Parse(StringOverflow)`, and the corrected pipeline outputs it. |
| `Pipeline.UnclosedCommandReported` | src/parser/tests.rs:107-108 | A document with an unclosed leading command is reported as `Parse(CommandLeftOpen)`, and nothing runs. |

## Left out

- `src/main.rs` is not part of this model. It is the command-line driver: argument handling and file reading and writing. Its stale copies of the parser and interpreter are superseded by `src/parser/mod.rs` and `src/interpreter/mod.rs`.
- `src/types.rs` is not modelled: it is an obsolete version of `Content` and `Command`.
- The expression tokenizer and parser that `src/parser/tests.rs:6-8` imports are not modelled, because they do not exist in the source.
- The `;`-separated multi-command test at `src/parser/tests.rs:91-102` is not modelled. It expects `parseCommand` to return a list, which its signature does not do.
- The fixture-file test in `src/tests.rs` is not modelled: it reads and writes files.
- `From<std::io::Error>` is not modelled. `Error::IO` carries the already rendered message.
- `Pipeline.Process`: it and the rows built on `Parser.ParseFile` hold for the program itself only on ASCII documents, by `Pipeline.ProcessAsWrittenOnAscii`. On other documents the program cuts spans at the wrong places (see "## Findings"). `Pipeline.AsWrittenRejectsCharacter` shows one such document.
- `Pipeline.ProcessAsWritten`: the fixture test at `src/tests.rs:26` calls `expect` on each half and panics on either error. The model returns the error as an `Error` value instead, lifted by the `From` conversions of `src/types/error.rs:29-39`; the panic is not modelled.
- `Interpreter.Step`: `add` and `subtract` require the result to fit in `i32` (`StepInRange`, and `RunInRange` for a whole run). The source panics on overflow in debug builds and wraps in release builds; neither is modelled.
- `Decimal.IntErrorMessage` gives the cause texts of Rust's standard `ParseIntError`. They come from the standard library, not from the repository.
- `str::parse::<i32>` is modelled by its accepted language and error kinds; a leading `+` is accepted like a `-`.
- The six-item document of `src/parser/tests.rs:110-123` is not proved as a literal. It is an instance of `Parser.ParseDocumentSource`: its text spans hold no `$`, and its command names are single words.
- The `let it be...` and `subtract zero -1` test strings of `src/parser/tests.rs:84-94` are not proved as literals.
  - The first is an instance of `Parser.ParseCommandErrors`.
  - The second test expects a list, which does not match the signature; its single-command reading is covered by `Parser.ParseCommandSource`.
- `HashMap` is a Dafny `map`. `clear` and the `&mut self` methods return the new store instead of mutating it in place.

## Findings

| source | as written | input that shows it | evidently intended | confidence | as-written member | corrected member |
|---|---|---|---|---|---|---|
| src/parser/mod.rs:18-23 | `current` counts characters, but `getter` hands the counts to `str::get`, which takes byte offsets. | The document `é` (two bytes) gives `StringOverflow`. The document `éa` gives `[Text("é")]`, dropping `a`. | Spans are cut at character positions, so `é` is `[Text("é")]` and `éa` is `[Text("éa")]`. | not executed | `Parser.ParseFileAsWritten`, exhibited by `Parser.AsWrittenSplitsCharacter` and `Parser.AsWrittenDropsText` | `Parser.ParseFile`, proved by `Parser.ParseFileMeaning` |

The scan as written is `Parser.ParseFileAsWritten`; `Parser.AsWrittenSplitsCharacter`
and `Parser.AsWrittenDropsText` exhibit the two failures, and
`Parser.ParseFileAsWrittenOnAscii` shows that on ASCII documents it agrees with
the corrected scan. The corrected scan, `Parser.ParseFile`, is the one the rest
of the model uses; `Parser.ParseFileMeaning` proves it equal to the functional
description.

=== FILE: decimal.dfy ===
/** Decimal text and 32-bit integers: the two standard-library conversions the
    engine relies on, `i32::to_string` (used by `write`) and
    `str::parse::<i32>` (used for the number word of `let`, `set`, `add` and
    `subtract`). Both come from Rust's standard library, not from the
    repository; they are written out here so that the rest of the model can
    state what a command's number word means. */
module Decimal {
  import opened Wrappers

  const I32Min: int := -0x8000_0000
  const I32Max: int := 0x7FFF_FFFF

  /** Rust's `i32`. Integers in Dafny are unbounded, so the range is explicit. */
  type i32 = n: int | IsI32(n)

  predicate IsI32(n: int) {
    I32Min <= n <= I32Max
  }

  predicate IsDigit(c: char) {
    '0' <= c <= '9'
  }

  predicate AllDigits(s: string) {
    forall i :: 0 <= i < |s| ==> IsDigit(s[i])
  }

  function DigitValue(c: char): nat
    requires IsDigit(c)
  {
    c as int - '0' as int
  }

  function DigitChar(d: nat): char
    requires d < 10
  {
    ('0' as int + d) as char
  }

  /** The value of a string of decimal digits, most significant digit first. */
  function DigitsValue(s: string): nat
    requires AllDigits(s)
  {
    if |s| == 0 then 0 else 10 * DigitsValue(s[..|s| - 1]) + DigitValue(s[|s| - 1])
  }

  // ---------------------------------------------------------------------------
  // Rendering: `i32::to_string`
  // ---------------------------------------------------------------------------

  /** Shortest decimal rendering of a natural number. */
  function NatToString(n: nat): (r: string)
    ensures |r| >= 1 && AllDigits(r)
    ensures r[0] == '0' ==> n == 0
  {
    if n < 10 then [DigitChar(n)] else NatToString(n / 10) + [DigitChar(n % 10)]
  }

  /** Decimal rendering of an integer: a `-` for negative numbers, then the
      digits of the magnitude without leading zeros. */
  function IntToString(n: int): (r: string)
    ensures |r| >= 1
    ensures r[0] == '-' <==> n < 0
    ensures AllDigits(r[1..])
    ensures n >= 0 ==> AllDigits(r)
  {
    if n < 0 then "-" + NatToString(-n) else NatToString(n)
  }

  /** Reading the digits back gives the number that was rendered. */
  lemma {:induction false} NatToStringValue(n: nat)
    ensures DigitsValue(NatToString(n)) == n
  {
    if n >= 10 {
      var s := NatToString(n);
      NatToStringValue(n / 10);
      assert s[..|s| - 1] == NatToString(n / 10);
      assert s[|s| - 1] == DigitChar(n % 10);
    }
  }

  // ---------------------------------------------------------------------------
  // Parsing: `str::parse::<i32>`
  // ---------------------------------------------------------------------------

  /** Rust's `IntErrorKind` restricted to the kinds `i32` parsing can report. */
  datatype IntErrorKind = Empty | InvalidDigit | PosOverflow | NegOverflow

  /** Length of the longest prefix of `s` made of digits. */
  function LeadingDigits(s: string): (j: nat)
    ensures j <= |s|
    ensures AllDigits(s[..j])
    ensures j < |s| ==> !IsDigit(s[j])
  {
    if |s| == 0 || !IsDigit(s[0]) then 0
    else
      var k := LeadingDigits(s[1..]);
      assert s[..k + 1] == [s[0]] + s[1..][..k];
      1 + k
  }

  /** The digits of a number word once an optional leading sign is dropped. */
  function Unsigned(s: string): string {
    if |s| > 0 && (s[0] == '+' || s[0] == '-') then s[1..] else s
  }

  predicate Negative(s: string) {
    |s| > 0 && s[0] == '-'
  }

  /** `str::parse::<i32>`. The empty string is `Empty`; a lone sign is
      `InvalidDigit`. Otherwise the digits are scanned left to right,
      accumulating the signed value: a non-digit stops the scan with
      `InvalidDigit`, and an accumulator leaving the `i32` range stops it with
      an overflow. Because the accumulated magnitude only grows, the scan
      overflows before reaching the first non-digit exactly when the digits
      in front of that non-digit already denote an out-of-range value. */
  function ParseI32(s: string): (r: Result<i32, IntErrorKind>)
    ensures r == Err(Empty) <==> s == ""
  {
    if |s| == 0 then Err(Empty)
    else if s == "+" || s == "-" then Err(InvalidDigit)
    else
      var digits := Unsigned(s);
      var j := LeadingDigits(digits);
      var magnitude: int := DigitsValue(digits[..j]);
      var signed := if Negative(s) then -magnitude else magnitude;
      if !IsI32(signed) then Err(if Negative(s) then NegOverflow else PosOverflow)
      else if j < |digits| then Err(InvalidDigit)
      else Ok(signed)
  }

  /** Independent description of the words `str::parse::<i32>` accepts: an
      optional sign, at least one digit and nothing else, denoting a value in
      the `i32` range. */
  predicate IsI32Literal(s: string) {
    var digits := Unsigned(s);
    && |digits| > 0
    && AllDigits(digits)
    && IsI32(if Negative(s) then 0 - DigitsValue(digits) else DigitsValue(digits))
  }

  /** The value an accepted word denotes. */
  function LiteralValue(s: string): int
    requires IsI32Literal(s)
  {
    if Negative(s) then 0 - DigitsValue(Unsigned(s)) else DigitsValue(Unsigned(s))
  }

  /** Parsing succeeds exactly on literals, and then yields their value. */
  lemma ParseI32Accepts(s: string)
    ensures ParseI32(s).Ok? <==> IsI32Literal(s)
    ensures ParseI32(s).Ok? ==> ParseI32(s).value == LiteralValue(s)
  {
    var digits := Unsigned(s);
    if IsI32Literal(s) || ParseI32(s).Ok? {
      assert s != "+" && s != "-";
      assert digits[..LeadingDigits(digits)] == digits;
    }
  }

  /** The word `write` prints for a value reads back as that value. */
  lemma ParseIntToString(n: i32)
    ensures ParseI32(IntToString(n)) == Ok(n)
  {
    var s := IntToString(n);
    if n < 0 {
      NatToStringValue(-(n as int));
      assert Unsigned(s) == NatToString(-(n as int));
    } else {
      NatToStringValue(n);
      assert Unsigned(s) == NatToString(n);
    }
    ParseI32Accepts(s);
  }

  /** Distinct values have distinct renderings. */
  lemma IntToStringInjective(a: i32, b: i32)
    ensures IntToString(a) == IntToString(b) ==> a == b
  {
    ParseIntToString(a);
    ParseIntToString(b);
  }

  /** The cause text Rust's `ParseIntError` displays for each kind. */
  function IntErrorMessage(k: IntErrorKind): string {
    match k
    case Empty => "cannot parse integer from empty string"
    case InvalidDigit => "invalid digit found in string"
    case PosOverflow => "number too large to fit in target type"
    case NegOverflow => "number too small to fit in target type"
  }
}

=== FILE: document.dfy ===
/** The document layer of the parser. A document is cut at every `$`: the
    spans alternate between literal text and command text, starting with
    text. Text spans become `Text` items verbatim; command spans go through
    the command parser, which is a parameter here so that the document layer
    is stated and proved once, independently of the command grammar. */
module Document {
  import opened Wrappers
  import opened Strings
  import opened Errors
  import opened Types
  import opened Utf8

  /** Reads the text of one command span. */
  type CommandParser = string -> Result<Command, ParsingErr>

  // ---------------------------------------------------------------------------
  // The functional description
  // ---------------------------------------------------------------------------

  /** One span as an item: verbatim text, or a parsed command. */
  function ParseSpan(command: CommandParser, span: string, isCommand: bool): Result<Content, ParsingErr> {
    if isCommand then
      var c :- command(span);
      Ok(Command(c))
    else Ok(Text(span))
  }

  /** Items for the spans between `$` characters, the first of which is a
      command span exactly when `readingCommand` holds. Every span followed
      by a `$` yields an item, even an empty text span; the last span yields a
      `Text` only when it is not empty, and is an error when it is an
      unclosed command. */
  function Segment(command: CommandParser, spans: seq<string>, readingCommand: bool): Result<seq<Content>, ParsingErr>
    requires |spans| >= 1
    decreases |spans|
  {
    if |spans| == 1 then
      if readingCommand then Err(CommandLeftOpen)
      else if spans[0] == "" then Ok([])
      else Ok([Text(spans[0])])
    else
      var head :- ParseSpan(command, spans[0], readingCommand);
      var rest :- Segment(command, spans[1..], !readingCommand);
      Ok([head] + rest)
  }

  /** The document split at every `$`, text first. */
  function Segments(command: CommandParser, input: string): Result<seq<Content>, ParsingErr> {
    Segment(command, SplitOn(input, '$'), false)
  }

  // ---------------------------------------------------------------------------
  // The index-tracking scan
  // ---------------------------------------------------------------------------

  /** Slicing the input between two offsets; out-of-range offsets are
      `StringOverflow`. */
  function Getter(s: string, a: nat, b: nat): Result<string, ParsingErr> {
    if a <= b <= |s| then Ok(s[a..b]) else Err(StringOverflow)
  }

  /** What the rest of the scan contributes after the items already found. */
  function Continue(found: seq<Content>, rest: Result<seq<Content>, ParsingErr>): Result<seq<Content>, ParsingErr> {
    match rest
    case Ok(items) => Ok(found + items)
    case Err(e) => Err(e)
  }

  /** Cutting the remaining text at its first `$`. */
  lemma ScanCut(input: string, chunkStart: nat, k: nat)
    requires chunkStart <= k < |input| && input[k] == '$'
    requires forall i :: chunkStart <= i < k ==> input[i] != '$'
    ensures SplitOn(input[chunkStart..], '$') == [input[chunkStart..k]] + SplitOn(input[k + 1..], '$')
  {
    var s := input[chunkStart..];
    assert s[..k - chunkStart] == input[chunkStart..k];
    assert s[k - chunkStart + 1..] == input[k + 1..];
    SplitOnAt(s, '$', k - chunkStart);
  }

  /** One more closed span: either its error ends the document, or its item
      joins the ones already found. */
  lemma ContinueStep(command: CommandParser, found: seq<Content>, span: string, rest: seq<string>, readingCommand: bool)
    requires |rest| >= 1
    ensures var head := ParseSpan(command, span, readingCommand);
            Continue(found, Segment(command, [span] + rest, readingCommand))
              == if head.Err? then Err(head.error)
                 else Continue(found + [head.value], Segment(command, rest, !readingCommand))
  {
    assert ([span] + rest)[1..] == rest;
    var head := ParseSpan(command, span, readingCommand);
    if head.Ok? && Segment(command, rest, !readingCommand).Ok? {
      assert found + ([head.value] + Segment(command, rest, !readingCommand).value)
          == found + [head.value] + Segment(command, rest, !readingCommand).value;
    }
  }

  /** The scan meets the `$` that closes the span starting at `chunkStart`. */
  lemma ScanDollar(command: CommandParser, goal: Result<seq<Content>, ParsingErr>, input: string, chunkStart: nat, k: nat, found: seq<Content>, readingCommand: bool)
    requires chunkStart <= k < |input| && input[k] == '$'
    requires forall i :: chunkStart <= i < k ==> input[i] != '$'
    requires goal == Continue(found, Segment(command, SplitOn(input[chunkStart..], '$'), readingCommand))
    ensures var head := ParseSpan(command, input[chunkStart..k], readingCommand);
            goal == if head.Err? then Err(head.error)
                               else Continue(found + [head.value], Segment(command, SplitOn(input[k + 1..], '$'), !readingCommand))
  {
    ScanCut(input, chunkStart, k);
    ContinueStep(command, found, input[chunkStart..k], SplitOn(input[k + 1..], '$'), readingCommand);
  }

  /** The scan reaches the end of the input inside the span starting at
      `chunkStart`. */
  lemma ScanEnd(command: CommandParser, goal: Result<seq<Content>, ParsingErr>, input: string, chunkStart: nat, found: seq<Content>, readingCommand: bool)
    requires chunkStart <= |input|
    requires forall i :: chunkStart <= i < |input| ==> input[i] != '$'
    requires goal == Continue(found, Segment(command, SplitOn(input[chunkStart..], '$'), readingCommand))
    ensures goal == if readingCommand then Err(CommandLeftOpen)
                               else if chunkStart < |input| then Ok(found + [Text(input[chunkStart..])])
                               else Ok(found)
  {
    var last := input[chunkStart..];
    assert '$' !in last;
    SplitOnAbsent(last, '$');
    if chunkStart == |input| {
      assert found + [] == found;
    }
  }

  /** Before the scan starts, nothing is found and the whole input is the
      current span. */
  lemma ScanStart(command: CommandParser, input: string)
    ensures Segments(command, input) == Continue([], Segment(command, SplitOn(input[0..], '$'), false))
  {
    assert input[0..] == input;
    if Segments(command, input).Ok? {
      assert [] + Segments(command, input).value == Segments(command, input).value;
    }
  }

  /** The scan's `getter`: cuts the input between two offsets. */
  type SpanGetter = (nat, nat) -> Result<string, ParsingErr>

  /** The getter as written: the offsets go to Rust's `str::get`, which takes
      byte offsets, and a failed `get` is `StringOverflow`. */
  function ByteGetter(input: string, a: nat, b: nat): Result<string, ParsingErr> {
    match Utf8.Get(input, a, b)
    case Some(t) => Ok(t)
    case None => Err(StringOverflow)
  }

  /** The document scan from character `current` on: `chunkStart` is where
      the current span starts, `found` the items produced so far. Each `$`
      closes the current span; at the end an open command is an error and
      a non-empty text span is the last item. */
  function Scan(command: CommandParser, getter: SpanGetter, input: string, current: nat, chunkStart: nat,
                readingCommand: bool, found: seq<Content>): Result<seq<Content>, ParsingErr>
    requires chunkStart <= current <= |input|
    decreases |input| - current
  {
    if current == |input| then
      if readingCommand then Err(CommandLeftOpen)
      else if chunkStart < current then
        var t :- getter(chunkStart, current);
        Ok(found + [Text(t)])
      else Ok(found)
    else if input[current] == '$' then
      var t :- getter(chunkStart, current);
      var chunk :- ParseSpan(command, t, readingCommand);
      Scan(command, getter, input, current + 1, current + 1, !readingCommand, found + [chunk])
    else Scan(command, getter, input, current + 1, chunkStart, readingCommand, found)
  }

  /** The getter cuts spans by character position. */
  ghost predicate CutsByCharacters(getter: SpanGetter, input: string) {
    forall a: nat, b: nat :: getter(a, b) == Getter(input, a, b)
  }

  /** The getter that cuts at character positions. */
  function CharCuts(input: string): SpanGetter {
    (a: nat, b: nat) => Getter(input, a, b)
  }

  /** The getter that cuts at byte offsets, as written. */
  function ByteCuts(input: string): SpanGetter {
    (a: nat, b: nat) => ByteGetter(input, a, b)
  }

  /** The byte getter cuts by character position on ASCII text. */
  lemma ByteGetterOnAscii(input: string)
    requires IsAscii(input)
    ensures CutsByCharacters(ByteCuts(input), input)
  {
    forall a: nat, b: nat
      ensures ByteGetter(input, a, b) == Getter(input, a, b)
    {
      AsciiGet(input, a, b);
    }
  }

  /** A character absent from a slice is absent at each of its positions. */
  lemma AbsentFromSlice(s: string, a: nat, b: nat, c: char)
    requires a <= b <= |s| && c !in s[a..b]
    ensures forall i :: a <= i < b ==> s[i] != c
  {
    forall i | a <= i < b
      ensures s[i] != c
    {
      assert s[a..b][i - a] == s[i];
    }
  }

  /** The current span grows by one character that is not a `$`. */
  lemma SpanGrows(s: string, a: nat, b: nat)
    requires a <= b < |s| && '$' !in s[a..b] && s[b] != '$'
    ensures '$' !in s[a..b + 1]
  {
    assert s[a..b + 1] == s[a..b] + [s[b]];
  }

  /** The end of the input: the invariant already determines the outcome. */
  lemma ScanFinish(command: CommandParser, goal: Result<seq<Content>, ParsingErr>, getter: SpanGetter, input: string, chunkStart: nat, readingCommand: bool, found: seq<Content>)
    requires chunkStart <= |input|
    requires CutsByCharacters(getter, input)
    requires '$' !in input[chunkStart..]
    requires goal == Continue(found, Segment(command, SplitOn(input[chunkStart..], '$'), readingCommand))
    ensures Scan(command, getter, input, |input|, chunkStart, readingCommand, found) == goal
  {
    AbsentFromSlice(input, chunkStart, |input|, '$');
    ScanEnd(command, goal, input, chunkStart, found, readingCommand);
    assert input[chunkStart..|input|] == input[chunkStart..];
  }

  /** A `$` closes the current span, whose item is either an error that
      ends the scan or is kept. */
  lemma ScanCloses(command: CommandParser, getter: SpanGetter, input: string, current: nat, chunkStart: nat,
                   readingCommand: bool, found: seq<Content>)
    requires chunkStart <= current < |input| && input[current] == '$'
    requires CutsByCharacters(getter, input)
    ensures var head := ParseSpan(command, input[chunkStart..current], readingCommand);
            Scan(command, getter, input, current, chunkStart, readingCommand, found)
              == if head.Err? then Err(head.error)
                 else Scan(command, getter, input, current + 1, current + 1, !readingCommand, found + [head.value])
  {
    assert getter(chunkStart, current) == Getter(input, chunkStart, current);
  }

  /** The step over a `$`: an error in the closed span is the outcome of
      both, otherwise both go on with the closed span's item added. */
  lemma ScanPastDollar(command: CommandParser, goal: Result<seq<Content>, ParsingErr>,
                       getter: SpanGetter, input: string, current: nat, chunkStart: nat,
                       readingCommand: bool, found: seq<Content>)
    requires chunkStart <= current < |input| && input[current] == '$'
    requires CutsByCharacters(getter, input)
    requires '$' !in input[chunkStart..current]
    requires goal == Continue(found, Segment(command, SplitOn(input[chunkStart..], '$'), readingCommand))
    ensures var head := ParseSpan(command, input[chunkStart..current], readingCommand);
            && (head.Err? ==> Scan(command, getter, input, current, chunkStart, readingCommand, found) == goal)
            && (head.Ok? ==> Scan(command, getter, input, current, chunkStart, readingCommand, found)
                               == Scan(command, getter, input, current + 1, current + 1, !readingCommand, found + [head.value]))
            && (head.Ok? ==> goal == Continue(found + [head.value], Segment(command, SplitOn(input[current + 1..], '$'), !readingCommand)))
  {
    AbsentFromSlice(input, chunkStart, current, '$');
    ScanCloses(command, getter, input, current, chunkStart, readingCommand, found);
    ScanDollar(command, goal, input, chunkStart, current, found, readingCommand);
  }

  /** Any other character just extends the current span. */
  lemma ScanSkips(command: CommandParser, getter: SpanGetter, input: string, current: nat, chunkStart: nat,
                  readingCommand: bool, found: seq<Content>)
    requires chunkStart <= current < |input| && input[current] != '$'
    ensures Scan(command, getter, input, current, chunkStart, readingCommand, found)
         == Scan(command, getter, input, current + 1, chunkStart, readingCommand, found)
  {
  }

  /** The scan's invariant carries it to the functional description: given
      that `found` and the spans of the rest make up `goal`, the rest of the
      scan produces `goal`. */
  lemma {:induction false} ScanComputesSegments(command: CommandParser, goal: Result<seq<Content>, ParsingErr>,
                                                getter: SpanGetter, input: string, current: nat, chunkStart: nat,
                                                readingCommand: bool, found: seq<Content>)
    requires chunkStart <= current <= |input|
    requires CutsByCharacters(getter, input)
    requires '$' !in input[chunkStart..current]
    requires goal == Continue(found, Segment(command, SplitOn(input[chunkStart..], '$'), readingCommand))
    ensures Scan(command, getter, input, current, chunkStart, readingCommand, found) == goal
    decreases |input| - current, 1
  {
    if current == |input| {
      ScanFinish(command, goal, getter, input, chunkStart, readingCommand, found);
    } else if input[current] == '$' {
      ScanPastDollar(command, goal, getter, input, current, chunkStart, readingCommand, found);
      var head := ParseSpan(command, input[chunkStart..current], readingCommand);
      if head.Ok? {
        ScanAfterDollar(command, goal, getter, input, current, readingCommand, found + [head.value]);
      }
    } else {
      ScanAfterOther(command, goal, getter, input, current, chunkStart, readingCommand, found);
    }
  }

  /** The invariant carried over a `$` that closes a well-formed span. */
  lemma {:induction false} ScanAfterDollar(command: CommandParser, goal: Result<seq<Content>, ParsingErr>,
                                           getter: SpanGetter, input: string, current: nat,
                                           readingCommand: bool, found: seq<Content>)
    requires current < |input|
    requires CutsByCharacters(getter, input)
    requires goal == Continue(found, Segment(command, SplitOn(input[current + 1..], '$'), !readingCommand))
    ensures Scan(command, getter, input, current + 1, current + 1, !readingCommand, found) == goal
    decreases |input| - current, 0
  {
    assert input[current + 1..current + 1] == [];
    ScanComputesSegments(command, goal, getter, input, current + 1, current + 1, !readingCommand, found);
  }

  /** The invariant carried over any other character. */
  lemma {:induction false} ScanAfterOther(command: CommandParser, goal: Result<seq<Content>, ParsingErr>,
                                          getter: SpanGetter, input: string, current: nat, chunkStart: nat,
                                          readingCommand: bool, found: seq<Content>)
    requires chunkStart <= current < |input| && input[current] != '$'
    requires CutsByCharacters(getter, input)
    requires '$' !in input[chunkStart..current]
    requires goal == Continue(found, Segment(command, SplitOn(input[chunkStart..], '$'), readingCommand))
    ensures Scan(command, getter, input, current, chunkStart, readingCommand, found) == goal
    decreases |input| - current, 0
  {
    SpanGrows(input, chunkStart, current);
    ScanSkips(command, getter, input, current, chunkStart, readingCommand, found);
    ScanComputesSegments(command, goal, getter, input, current + 1, chunkStart, readingCommand, found);
  }

  // ---------------------------------------------------------------------------
  // What the functional description promises
  // ---------------------------------------------------------------------------

  /** Span `i` is a command span when its parity differs from that of the
      first span: spans alternate starting with text (`readingCommand` false)
      or with a command. */
  predicate CommandAt(i: nat, readingCommand: bool) {
    (i % 2 == 1) != readingCommand
  }

  lemma CommandAtShift(i: nat, readingCommand: bool)
    ensures CommandAt(i + 1, !readingCommand) == CommandAt(i, readingCommand)
  {
  }

  /** Every command span that a `$` closes, i.e. every command span but the
      last span, is accepted by the command parser. */
  ghost predicate ClosedCommandsParse(command: CommandParser, spans: seq<string>, readingCommand: bool) {
    forall i :: 0 <= i < |spans| - 1 && CommandAt(i, readingCommand) ==> command(spans[i]).Ok?
  }

  lemma ClosedCommandsParseShift(command: CommandParser, spans: seq<string>, readingCommand: bool)
    requires |spans| > 1
    ensures ClosedCommandsParse(command, spans, readingCommand)
        <==> && (readingCommand ==> command(spans[0]).Ok?)
             && ClosedCommandsParse(command, spans[1..], !readingCommand)
  {
    if ClosedCommandsParse(command, spans[1..], !readingCommand) && (readingCommand ==> command(spans[0]).Ok?) {
      forall i | 0 <= i < |spans| - 1 && CommandAt(i, readingCommand)
        ensures command(spans[i]).Ok?
      {
        if i > 0 {
          CommandAtShift(i - 1, !readingCommand);
          assert spans[1..][i - 1] == spans[i];
        }
      }
    }
    if ClosedCommandsParse(command, spans, readingCommand) {
      forall i | 0 <= i < |spans[1..]| - 1 && CommandAt(i, !readingCommand)
        ensures command(spans[1..][i]).Ok?
      {
        CommandAtShift(i, readingCommand);
        assert CommandAt(i + 1, readingCommand);
      }
    }
  }

  /** The segmentation succeeds exactly when the last span is a text span
      (every command opened is closed) and every closed command span
      parses. */
  lemma {:induction false} SegmentOk(command: CommandParser, spans: seq<string>, readingCommand: bool)
    requires |spans| >= 1
    ensures Segment(command, spans, readingCommand).Ok?
        <==> !CommandAt(|spans| - 1, readingCommand) && ClosedCommandsParse(command, spans, readingCommand)
    decreases |spans|
  {
    if |spans| > 1 {
      SegmentOk(command, spans[1..], !readingCommand);
      ClosedCommandsParseShift(command, spans, readingCommand);
      CommandAtShift(|spans| - 2, readingCommand);
    }
  }

  /** The item a closed span yields in a successful segmentation. */
  function SpanItem(command: CommandParser, span: string, isCommand: bool): Content
    requires isCommand ==> command(span).Ok?
  {
    if isCommand then Command(command(span).value) else Text(span)
  }

  /** The items of a successful segmentation: one per `$`, in order, the
      span's text or its parsed command, then the last span as text when it
      is not empty. */
  lemma {:induction false} SegmentItems(command: CommandParser, spans: seq<string>, readingCommand: bool)
    requires |spans| >= 1 && Segment(command, spans, readingCommand).Ok?
    ensures var items := Segment(command, spans, readingCommand).value;
            var last := spans[|spans| - 1];
            && |items| == |spans| - 1 + (if last == "" then 0 else 1)
            && (last != "" ==> items[|spans| - 1] == Text(last))
    ensures var items := Segment(command, spans, readingCommand).value;
            forall i :: 0 <= i < |spans| - 1 ==>
              && (CommandAt(i, readingCommand) ==> command(spans[i]).Ok?)
              && items[i] == SpanItem(command, spans[i], CommandAt(i, readingCommand))
    decreases |spans|
  {
    if |spans| > 1 {
      SegmentItems(command, spans[1..], !readingCommand);
      var items := Segment(command, spans, readingCommand).value;
      var rest := Segment(command, spans[1..], !readingCommand).value;
      assert items == [items[0]] + rest;
      forall i | 0 < i < |spans| - 1
        ensures && (CommandAt(i, readingCommand) ==> command(spans[i]).Ok?)
                && items[i] == SpanItem(command, spans[i], CommandAt(i, readingCommand))
      {
        CommandAtShift(i - 1, !readingCommand);
        assert spans[1..][i - 1] == spans[i];
        assert items[i] == rest[i - 1];
      }
    }
  }

  /** The first closed command span that does not parse decides the outcome:
      its error is returned and no items are. */
  lemma {:induction false} SegmentFailsAt(command: CommandParser, spans: seq<string>, readingCommand: bool, k: nat)
    requires k < |spans| - 1 && CommandAt(k, readingCommand) && command(spans[k]).Err?
    requires forall i :: 0 <= i < k && CommandAt(i, readingCommand) ==> command(spans[i]).Ok?
    ensures Segment(command, spans, readingCommand) == Err(command(spans[k]).error)
    decreases |spans|
  {
    if k > 0 {
      forall i | 0 <= i < k - 1 && CommandAt(i, !readingCommand)
        ensures command(spans[1..][i]).Ok?
      {
        CommandAtShift(i, readingCommand);
        assert CommandAt(i + 1, readingCommand);
      }
      CommandAtShift(k - 1, !readingCommand);
      assert spans[1..][k - 1] == spans[k];
      SegmentFailsAt(command, spans[1..], !readingCommand, k - 1);
    }
  }

  /** When every closed command parses, an unclosed last command is the
      error. */
  lemma {:induction false} SegmentLeftOpen(command: CommandParser, spans: seq<string>, readingCommand: bool)
    requires |spans| >= 1 && CommandAt(|spans| - 1, readingCommand)
    requires ClosedCommandsParse(command, spans, readingCommand)
    ensures Segment(command, spans, readingCommand) == Err(CommandLeftOpen)
    decreases |spans|
  {
    if |spans| > 1 {
      ClosedCommandsParseShift(command, spans, readingCommand);
      CommandAtShift(|spans| - 2, readingCommand);
      SegmentLeftOpen(command, spans[1..], !readingCommand);
    }
  }

  /** Spans that alternate text and command text, whose command spans read
      as the given commands and whose last span is empty exactly after a
      command, segment to exactly those items. */
  lemma SegmentReadsBack(command: CommandParser, spans: seq<string>, items: seq<Content>)
    requires |spans| == |items| + (if |items| % 2 == 0 then 1 else 0)
    requires forall i :: 0 <= i < |items| ==> (items[i].Text? <==> i % 2 == 0)
    requires forall i :: 0 <= i < |items| && i % 2 == 0 ==> spans[i] == items[i].text
    requires forall i :: 0 <= i < |items| && i % 2 == 1 ==> command(spans[i]) == Ok(items[i].command)
    requires |items| % 2 == 0 ==> spans[|items|] == ""
    requires |items| % 2 == 1 ==> spans[|items| - 1] != ""
    ensures Segment(command, spans, false) == Ok(items)
  {
    ReadsBackOk(command, spans, items);
    var parsed := Segment(command, spans, false).value;
    ReadsBackLength(command, spans, items);
    forall i | 0 <= i < |items|
      ensures parsed[i] == items[i]
    {
      ReadsBackAt(command, spans, items, i);
    }
    assert parsed == items;
  }

  /** Such spans yield one item per item given. */
  lemma ReadsBackLength(command: CommandParser, spans: seq<string>, items: seq<Content>)
    requires |spans| == |items| + (if |items| % 2 == 0 then 1 else 0)
    requires |items| % 2 == 0 ==> spans[|items|] == ""
    requires |items| % 2 == 1 ==> spans[|items| - 1] != ""
    requires Segment(command, spans, false).Ok?
    ensures |Segment(command, spans, false).value| == |items|
  {
    SegmentItems(command, spans, false);
  }

  /** Such spans yield the given item at each position. */
  lemma ReadsBackAt(command: CommandParser, spans: seq<string>, items: seq<Content>, i: nat)
    requires |spans| == |items| + (if |items| % 2 == 0 then 1 else 0)
    requires forall i :: 0 <= i < |items| ==> (items[i].Text? <==> i % 2 == 0)
    requires forall i :: 0 <= i < |items| && i % 2 == 0 ==> spans[i] == items[i].text
    requires forall i :: 0 <= i < |items| && i % 2 == 1 ==> command(spans[i]) == Ok(items[i].command)
    requires Segment(command, spans, false).Ok? && |Segment(command, spans, false).value| == |items|
    requires i < |items|
    ensures Segment(command, spans, false).value[i] == items[i]
  {
    SegmentItems(command, spans, false);
    var got := Segment(command, spans, false).value[i];
    if i == |spans| - 1 {
      assert |items| % 2 == 1 && i == |items| - 1;
      OddPredecessor(|items|);
      ItemReadsBack(command, spans[i], items[i], got, false);
    } else {
      ItemReadsBack(command, spans[i], items[i], got, i % 2 == 1);
    }
  }

  /** One span read back as its item. */
  lemma ItemReadsBack(command: CommandParser, span: string, item: Content, got: Content, isCommand: bool)
    requires item.Text? <==> !isCommand
    requires !isCommand ==> span == item.text && got == Text(span)
    requires isCommand ==> command(span) == Ok(item.command) && got == SpanItem(command, span, true)
    ensures got == item
  {
  }

  lemma OddPredecessor(n: nat)
    requires n % 2 == 1
    ensures (n - 1) % 2 == 0
  {
  }

  /** Such spans segment without error. */
  lemma ReadsBackOk(command: CommandParser, spans: seq<string>, items: seq<Content>)
    requires |spans| == |items| + (if |items| % 2 == 0 then 1 else 0)
    requires forall i :: 0 <= i < |items| && i % 2 == 1 ==> items[i].Command? && command(spans[i]).Ok?
    ensures Segment(command, spans, false).Ok?
  {
    assert !CommandAt(|spans| - 1, false);
    forall i | 0 <= i < |spans| - 1 && CommandAt(i, false)
      ensures command(spans[i]).Ok?
    {
      assert i < |items| && i % 2 == 1;
    }
    SegmentOk(command, spans, false);
  }
}

=== FILE: engine.dfy ===
/** The variable store: a table from variable name to `i32` value. Rust's
    methods take `&mut self`; here each one returns what it reports together
    with the store as the caller sees it afterwards, which matters because a
    failed `CreateVariable` has already overwritten the value. */
module Engine {
  import opened Wrappers
  import opened Decimal
  import opened Errors
  import Util

  datatype Effect = Effect(result: Result<(), RunErr>, after: Storage)

  datatype Storage = Storage(variables: map<string, i32>) {

    /** Looking a name up; the only error is an absent name. */
    function GetValue(key: string): (r: Result<i32, RunErr>)
      ensures r.Ok? <==> key in variables
      ensures r.Ok? ==> r.value == variables[key]
      ensures r.Err? ==> r.error == TriedToGetNonexistentVariable
    {
      if key in variables then Ok(variables[key]) else Err(TriedToGetNonexistentVariable)
    }

    /** `let`: the value is inserted first and the error is reported only
        afterwards, so on an existing name the old value is lost anyway. */
    function CreateVariable(variable: string, val: i32): (e: Effect)
      ensures e.after.GetValue(variable) == Ok(val)
      ensures forall k :: k != variable ==> e.after.GetValue(k) == GetValue(k)
      ensures e.after.variables.Keys == variables.Keys + {variable}
      ensures e.result.Ok? <==> GetValue(variable).Err?
      ensures e.result.Err? ==> e.result.error == TriedToInitializeExistingVariable
    {
      var previous := if variable in variables then Some(variables[variable]) else None;
      var inserted := Storage(variables[variable := val]);
      match previous
      case None => Effect(Ok(()), inserted)
      case Some(_) => Effect(Err(TriedToInitializeExistingVariable), inserted)
    }

    /** `set`, `add` and `subtract`: replace a present value by `func` of it;
        an absent name is an error and changes nothing. */
    function ModifyVariable(key: string, func: i32 --> i32): (e: Effect)
      requires key in variables ==> func.requires(variables[key])
      ensures e.after.variables.Keys == variables.Keys
      ensures GetValue(key).Ok? ==> e.result == Ok(()) && e.after.GetValue(key) == Ok(func(variables[key]))
      ensures GetValue(key).Err? ==> e == Effect(Err(TriedToModifyNonexistentVariable), this)
      ensures forall k :: k != key ==> e.after.GetValue(k) == GetValue(k)
    {
      match GetValue(key)
      case Ok(contents) => Effect(Ok(()), Storage(variables[key := func(contents)]))
      case Err(_) => Effect(Err(TriedToModifyNonexistentVariable), this)
    }
  }

  function New(): Storage {
    Storage(map[])
  }

  function Clear(s: Storage): Storage {
    Storage(map[])
  }

  /** A new store and a cleared one know no variable: reads and updates fail
      on every name and creation succeeds on every name. */
  lemma NewAndClearAreEmpty(s: Storage, name: string, val: i32, func: i32 --> i32)
    ensures Clear(s) == New()
    ensures New().GetValue(name) == Err(TriedToGetNonexistentVariable)
    ensures New().ModifyVariable(name, func).result == Err(TriedToModifyNonexistentVariable)
    ensures New().CreateVariable(name, val).result == Ok(())
  {
  }

  /** Creating the same name twice always fails the second time, and the
      second value is the one that stays. */
  lemma CreateTwiceFails(s: Storage, name: string, a: i32, b: i32)
    ensures var first := s.CreateVariable(name, a);
            var second := first.after.CreateVariable(name, b);
            second.result == Err(TriedToInitializeExistingVariable) && second.after.GetValue(name) == Ok(b)
  {
  }

  /** The store's own update is the generic helper with the
      "modify a nonexistent variable" error plugged in. */
  lemma ModifyMatchesUtil(s: Storage, key: string, func: i32 --> i32)
    requires key in s.variables ==> func.requires(s.variables[key])
    ensures var u := Util.ModifyVariable(s.variables, key, func, TriedToModifyNonexistentVariable);
            s.ModifyVariable(key, func) == Effect(u.result, Storage(u.after))
  {
  }
}

=== FILE: errors.dfy ===
/** The engine's error families and their user-facing messages: parse errors
    raised while reading a document, run errors raised while executing it,
    and the top-level `Error` that wraps either (or an I/O failure). */
module Errors {
  import opened Wrappers
  import opened Decimal

  datatype ParsingErr =
    | UnrecognizedExpression(expr: string)
    | ExpressionParsing
    | StringOverflow
    | InvalidNumberOfArguments
    | CommandLeftOpen
    | UnrecognizedCommand(command: string)
    | NumberParsing(cause: IntErrorKind)

  datatype RunErr =
    | MissingInput
    | TriedToInitializeExistingVariable
    | TriedToModifyNonexistentVariable
    | TriedToGetNonexistentVariable

  /** `IO` carries the already rendered text of the I/O error. */
  datatype Error = IO(message: string) | Parse(parsing: ParsingErr) | Runtime(runtime: RunErr)

  // ---------------------------------------------------------------------------
  // Conversions (Rust `From` impls), as used by `?`
  // ---------------------------------------------------------------------------

  function FromRunErr(e: RunErr): Error {
    Runtime(e)
  }

  function FromParsingErr(e: ParsingErr): Error {
    Parse(e)
  }

  function FromParseIntError(cause: IntErrorKind): ParsingErr {
    NumberParsing(cause)
  }

  // ---------------------------------------------------------------------------
  // Messages (Rust `Display` impls)
  // ---------------------------------------------------------------------------

  const UnrecognizedExpressionPrefix := "Unrecognized expression: "
  const UnrecognizedCommandPrefix := "Unrecognized command: "
  const NumberParsingPrefix := "Failed conversion to i32: '"
  const ExpressionParsingMessage := "There was an error with expression parsing!"
  // The three long messages are written as two literals each: Dafny unfolds
  // only short string literals character by character, and telling the
  // messages apart needs their first characters.
  const StringOverflowMessage :=
    "Somehow, the contents of the file " + "caused a string overflow."
  const InvalidNumberOfArgumentsMessage :=
    "Invalid number of arguments " + "provided to a command"
  const CommandLeftOpenMessage :=
    "The command at the end of the file " + "was left open"

  function RunErrMessage(e: RunErr): string {
    match e
    case MissingInput => "Input the name of the file as the first argument"
    case TriedToInitializeExistingVariable => "Tried to initialize already existing variable"
    case TriedToModifyNonexistentVariable => "Tried to modify a nonexistent variable"
    case TriedToGetNonexistentVariable => "Tried to get a nonexistent variable"
  }

  function ParsingErrMessage(e: ParsingErr): string {
    match e
    case UnrecognizedExpression(expr) => UnrecognizedExpressionPrefix + expr
    case ExpressionParsing => ExpressionParsingMessage
    case StringOverflow => StringOverflowMessage
    case InvalidNumberOfArguments => InvalidNumberOfArgumentsMessage
    case CommandLeftOpen => CommandLeftOpenMessage
    case UnrecognizedCommand(command) => UnrecognizedCommandPrefix + command
    case NumberParsing(cause) => NumberParsingPrefix + IntErrorMessage(cause) + "'"
  }

  function FamilyPrefix(e: Error): string {
    match e
    case IO(_) => "[IO] "
    case Parse(_) => "[Parsing] "
    case Runtime(_) => "[Runtime] "
  }

  function ErrorMessage(e: Error): string {
    FamilyPrefix(e) + match e
      case IO(message) => message
      case Parse(p) => ParsingErrMessage(p)
      case Runtime(r) => RunErrMessage(r)
  }

  // ---------------------------------------------------------------------------
  // Reading a message back
  // ---------------------------------------------------------------------------

  predicate HasPrefix(s: string, p: string) {
    |p| <= |s| && s[..|p|] == p
  }

  function DecodeRunErr(m: string): Option<RunErr> {
    if m == RunErrMessage(MissingInput) then Some(MissingInput)
    else if m == RunErrMessage(TriedToInitializeExistingVariable) then Some(TriedToInitializeExistingVariable)
    else if m == RunErrMessage(TriedToModifyNonexistentVariable) then Some(TriedToModifyNonexistentVariable)
    else if m == RunErrMessage(TriedToGetNonexistentVariable) then Some(TriedToGetNonexistentVariable)
    else None
  }

  function DecodeIntErrorKind(m: string): Option<IntErrorKind> {
    if m == IntErrorMessage(Empty) then Some(Empty)
    else if m == IntErrorMessage(InvalidDigit) then Some(InvalidDigit)
    else if m == IntErrorMessage(PosOverflow) then Some(PosOverflow)
    else if m == IntErrorMessage(NegOverflow) then Some(NegOverflow)
    else None
  }

  function DecodeParsingErr(m: string): Option<ParsingErr> {
    if HasPrefix(m, UnrecognizedExpressionPrefix) then
      Some(UnrecognizedExpression(m[|UnrecognizedExpressionPrefix|..]))
    else if HasPrefix(m, UnrecognizedCommandPrefix) then
      Some(UnrecognizedCommand(m[|UnrecognizedCommandPrefix|..]))
    else if HasPrefix(m, NumberParsingPrefix) && |m| > |NumberParsingPrefix| && m[|m| - 1] == '\'' then
      match DecodeIntErrorKind(m[|NumberParsingPrefix|..|m| - 1])
      case Some(k) => Some(NumberParsing(k))
      case None => None
    else if m == ExpressionParsingMessage then Some(ExpressionParsing)
    else if m == StringOverflowMessage then Some(StringOverflow)
    else if m == InvalidNumberOfArgumentsMessage then Some(InvalidNumberOfArguments)
    else if m == CommandLeftOpenMessage then Some(CommandLeftOpen)
    else None
  }

  /** Each run error has a message of its own. */
  lemma RunErrMessageDecodes(e: RunErr)
    ensures DecodeRunErr(RunErrMessage(e)) == Some(e)
  {
  }

  lemma NotPrefixAt(m: string, p: string, i: nat)
    requires i < |p| && i < |m| && m[i] != p[i]
    ensures !HasPrefix(m, p)
  {
  }

  /** A fixed message starts with none of the payload prefixes. */
  lemma FixedMessageDecodes(m: string, e: ParsingErr)
    requires m == ParsingErrMessage(e)
    requires m == ExpressionParsingMessage || m == StringOverflowMessage
          || m == InvalidNumberOfArgumentsMessage || m == CommandLeftOpenMessage
    ensures DecodeParsingErr(m) == Some(e)
  {
    if m == ExpressionParsingMessage {
      assert m[0] == 'T';
    } else if m == StringOverflowMessage {
      assert m[0] == 'S';
    } else if m == InvalidNumberOfArgumentsMessage {
      assert m[0] == 'I';
    } else {
      assert m[0] == 'T';
    }
    NotPrefixAt(m, UnrecognizedExpressionPrefix, 0);
    NotPrefixAt(m, UnrecognizedCommandPrefix, 0);
    NotPrefixAt(m, NumberParsingPrefix, 0);
  }

  lemma DecodeUnrecognizedCommand(command: string)
    ensures DecodeParsingErr(ParsingErrMessage(UnrecognizedCommand(command))) == Some(UnrecognizedCommand(command))
  {
    var m := ParsingErrMessage(UnrecognizedCommand(command));
    assert m[..|UnrecognizedCommandPrefix|] == UnrecognizedCommandPrefix;
    NotPrefixAt(m, UnrecognizedExpressionPrefix, 13);
  }

  lemma DecodeNumberParsing(cause: IntErrorKind)
    ensures DecodeParsingErr(ParsingErrMessage(NumberParsing(cause))) == Some(NumberParsing(cause))
  {
    var m := ParsingErrMessage(NumberParsing(cause));
    assert m[..|NumberParsingPrefix|] == NumberParsingPrefix;
    assert m[|NumberParsingPrefix|..|m| - 1] == IntErrorMessage(cause);
    NotPrefixAt(m, UnrecognizedExpressionPrefix, 0);
    NotPrefixAt(m, UnrecognizedCommandPrefix, 0);
  }

  /** Each parse error has a message of its own, and the payload of
      `UnrecognizedExpression`, `UnrecognizedCommand` and `NumberParsing`
      can be read back out of it. */
  lemma ParsingErrMessageDecodes(e: ParsingErr)
    ensures DecodeParsingErr(ParsingErrMessage(e)) == Some(e)
  {
    match e
    case UnrecognizedExpression(expr) =>
      var m := ParsingErrMessage(e);
      assert m[..|UnrecognizedExpressionPrefix|] == UnrecognizedExpressionPrefix;
    case UnrecognizedCommand(command) =>
      DecodeUnrecognizedCommand(command);
    case NumberParsing(cause) =>
      DecodeNumberParsing(cause);
    case _ =>
      FixedMessageDecodes(ParsingErrMessage(e), e);
  }

  /** Messages of different errors differ. */
  lemma ErrorMessageInjective(a: Error, b: Error)
    requires ErrorMessage(a) == ErrorMessage(b)
    ensures a == b
  {
    var m := ErrorMessage(a);
    assert m[..|FamilyPrefix(a)|] == FamilyPrefix(a);
    assert m[..|FamilyPrefix(b)|] == FamilyPrefix(b);
    assert FamilyPrefix(a) == FamilyPrefix(b) by {
      assert m[1] == FamilyPrefix(a)[1] == FamilyPrefix(b)[1];
    }
    var inner := m[|FamilyPrefix(a)|..];
    match a
    case IO(_) =>
    case Parse(p) =>
      assert inner == ParsingErrMessage(p) == ParsingErrMessage(b.parsing);
      ParsingErrMessageDecodes(p);
      ParsingErrMessageDecodes(b.parsing);
    case Runtime(r) =>
      assert inner == RunErrMessage(r) == RunErrMessage(b.runtime);
      RunErrMessageDecodes(r);
      RunErrMessageDecodes(b.runtime);
  }

  /** The conversions `?` applies keep the error and put it in the matching
      family, which its message then names. */
  lemma ConversionsKeepFamily(r: RunErr, p: ParsingErr, cause: IntErrorKind)
    ensures ErrorMessage(FromRunErr(r)) == "[Runtime] " + RunErrMessage(r)
    ensures ErrorMessage(FromParsingErr(p)) == "[Parsing] " + ParsingErrMessage(p)
    ensures ParsingErrMessage(FromParseIntError(cause)) == NumberParsingPrefix + IntErrorMessage(cause) + "'"
    ensures FromRunErr(r) != FromParsingErr(p)
  {
  }
}

=== FILE: interpreter.dfy ===
/** Running a parsed document: the items are executed left to right against
    the variable store, text is copied to the output, `write` appends the
    decimal value of a variable, and the first error ends the run. The store
    is threaded through and returned, because Rust's `run` works on a
    `&mut Storage` that the caller keeps: changes made before an error stay. */
module Interpreter {
  import opened Wrappers
  import opened Decimal
  import opened Errors
  import opened Types
  import opened Engine

  /** What a run (or one item) reports, the output text or the first error,
      and the store as the caller sees it afterwards. */
  datatype Outcome = Outcome(result: Result<string, RunErr>, after: Storage)

  /** `add` and `subtract` compute `og + val` and `og - val` in `i32`, which
      Rust does not let overflow; the model asks that the result fit. */
  predicate StepInRange(s: Storage, item: Content) {
    match item
    case Command(Add(v, val)) => v in s.variables ==> IsI32(s.variables[v] + val)
    case Command(Subtract(v, val)) => v in s.variables ==> IsI32(s.variables[v] - val)
    case _ => true
  }

  /** The closures handed to `modifyVariable`. */
  function Replace(val: i32): i32 -> i32 {
    (_: i32) => val
  }

  function Plus(val: i32): i32 --> i32 {
    (og: i32) requires IsI32(og + val) => (og + val) as i32
  }

  function Minus(val: i32): i32 --> i32 {
    (og: i32) requires IsI32(og - val) => (og - val) as i32
  }

  /** A store operation as an item: it appends nothing. */
  function Silent(e: Effect): Outcome {
    Outcome(if e.result.Ok? then Ok("") else Err(e.result.error), e.after)
  }

  /** One item, stated in terms of the table of variables: text is copied
      and changes nothing; `let` always stores its value but fails on a name
      already present; `set`, `add` and `subtract` change a present value
      and fail, changing nothing, on an absent one; `write` renders a
      present value and never changes the store. */
  function Step(s: Storage, item: Content): (o: Outcome)
    requires StepInRange(s, item)
    ensures item.Text? ==> o == Outcome(Ok(item.text), s)
    ensures item.Command? && item.command.Let? ==>
              var v, val := item.command.name, item.command.value;
              && o.after.variables == s.variables[v := val]
              && o.result == if v in s.variables then Err(TriedToInitializeExistingVariable) else Ok("")
    ensures item.Command? && !item.command.Let? && !item.command.Write? && item.command.name !in s.variables ==>
              o == Outcome(Err(TriedToModifyNonexistentVariable), s)
    ensures item.Command? && item.command.Set? && item.command.name in s.variables ==>
              var v := item.command.name;
              o == Outcome(Ok(""), Storage(s.variables[v := item.command.value]))
    ensures item.Command? && item.command.Add? && item.command.name in s.variables ==>
              var v := item.command.name;
              o == Outcome(Ok(""), Storage(s.variables[v := s.variables[v] + item.command.value]))
    ensures item.Command? && item.command.Subtract? && item.command.name in s.variables ==>
              var v := item.command.name;
              o == Outcome(Ok(""), Storage(s.variables[v := s.variables[v] - item.command.value]))
    ensures item.Command? && item.command.Write? ==>
              && o.after == s
              && o.result == if item.command.name in s.variables then Ok(IntToString(s.variables[item.command.name]))
                             else Err(TriedToGetNonexistentVariable)
  {
    match item
    case Text(t) => Outcome(Ok(t), s)
    case Command(Let(v, val)) => Silent(s.CreateVariable(v, val))
    case Command(Set(v, val)) => Silent(s.ModifyVariable(v, Replace(val)))
    case Command(Add(v, val)) => Silent(s.ModifyVariable(v, Plus(val)))
    case Command(Subtract(v, val)) => Silent(s.ModifyVariable(v, Minus(val)))
    case Command(Write(v)) =>
      match s.GetValue(v)
      case Ok(n) => Outcome(Ok(IntToString(n)), s)
      case Err(e) => Outcome(Err(e), s)
  }

  /** No `add` or `subtract` overflows on the way: each item is in range for
      the store that the items before it leave, up to the first error. */
  predicate RunInRange(s: Storage, items: seq<Content>)
    decreases |items|
  {
    |items| == 0 ||
    (StepInRange(s, items[0]) && (Step(s, items[0]).result.Ok? ==> RunInRange(Step(s, items[0]).after, items[1..])))
  }

  /** The loop of `run`: `output` is the text produced so far. */
  function RunFrom(s: Storage, items: seq<Content>, output: string): Outcome
    requires RunInRange(s, items)
    decreases |items|
  {
    if |items| == 0 then Outcome(Ok(output), s)
    else
      var st := Step(s, items[0]);
      if st.result.Err? then Outcome(Err(st.result.error), st.after)
      else RunFrom(st.after, items[1..], output + st.result.value)
  }

  /** `run`, starting from empty output. */
  function Run(s: Storage, items: seq<Content>): Outcome
    requires RunInRange(s, items)
  {
    RunFrom(s, items, "")
  }

  /** An outcome with `prefix` written in front of its output. */
  function After(prefix: string, o: Outcome): Outcome {
    match o.result
    case Ok(out) => Outcome(Ok(prefix + out), o.after)
    case Err(_) => o
  }

  // ---------------------------------------------------------------------------
  // Properties of a run
  // ---------------------------------------------------------------------------

  /** The loop's accumulated output only ever sits in front of what the rest
      of the run produces. */
  lemma {:induction false} RunFromOutput(s: Storage, items: seq<Content>, output: string)
    requires RunInRange(s, items)
    ensures RunFrom(s, items, output) == After(output, Run(s, items))
    decreases |items|
  {
    if |items| == 0 {
      assert output + "" == output;
    } else {
      var st := Step(s, items[0]);
      if st.result.Ok? {
        RunFromOutput(st.after, items[1..], output + st.result.value);
        assert "" + st.result.value == st.result.value;
        RunFromOutput(st.after, items[1..], st.result.value);
        AfterAfter(output, st.result.value, Run(st.after, items[1..]));
      }
    }
  }

  /** One item followed by the rest: a failing item is the outcome, with the
      store it leaves; otherwise its text comes before the rest's output. */
  lemma RunCons(s: Storage, item: Content, rest: seq<Content>)
    requires StepInRange(s, item)
    requires Step(s, item).result.Ok? ==> RunInRange(Step(s, item).after, rest)
    ensures RunInRange(s, [item] + rest)
    ensures var st := Step(s, item);
            Run(s, [item] + rest) == if st.result.Err? then st else After(st.result.value, Run(st.after, rest))
  {
    var items := [item] + rest;
    assert items[0] == item && items[1..] == rest;
    var st := Step(s, item);
    if st.result.Ok? {
      RunFromOutput(st.after, rest, "" + st.result.value);
      assert "" + st.result.value == st.result.value;
    }
  }

  /** Running two lists one after the other is running their concatenation:
      an error in the first ends the run there, and otherwise the second
      starts from the store the first leaves, its output following the
      first's. */
  lemma {:induction false} RunAppend(s: Storage, a: seq<Content>, b: seq<Content>)
    requires RunInRange(s, a)
    requires Run(s, a).result.Ok? ==> RunInRange(Run(s, a).after, b)
    ensures RunInRange(s, a + b)
    ensures Run(s, a + b) == if Run(s, a).result.Err? then Run(s, a) else After(Run(s, a).result.value, Run(Run(s, a).after, b))
    decreases |a|
  {
    if |a| == 0 {
      assert a + b == b;
      AfterEmpty(Run(s, b));
    } else {
      var st := Step(s, a[0]);
      assert a == [a[0]] + a[1..];
      assert a + b == [a[0]] + (a[1..] + b);
      RunCons(s, a[0], a[1..]);
      if st.result.Ok? {
        RunAppend(st.after, a[1..], b);
        RunCons(s, a[0], a[1..] + b);
        var first := Run(st.after, a[1..]);
        if first.result.Ok? {
          AfterAfter(st.result.value, first.result.value, Run(first.after, b));
        }
      }
    }
  }

  lemma AfterEmpty(o: Outcome)
    ensures After("", o) == o
  {
    if o.result.Ok? {
      assert "" + o.result.value == o.result.value;
    }
  }

  lemma AfterAfter(p: string, q: string, o: Outcome)
    ensures After(p, After(q, o)) == After(p + q, o)
  {
    if o.result.Ok? {
      assert p + (q + o.result.value) == p + q + o.result.value;
    }
  }

  /** The first failing item decides the run: the items before it have run
      (and their store changes stay), the items after it are not looked
      at. */
  lemma RunFirstError(s: Storage, done: seq<Content>, item: Content, rest: seq<Content>)
    requires RunInRange(s, done) && Run(s, done).result.Ok?
    requires StepInRange(Run(s, done).after, item)
    requires Step(Run(s, done).after, item).result.Err?
    ensures RunInRange(s, done + [item] + rest)
    ensures Run(s, done + [item] + rest) == Step(Run(s, done).after, item)
  {
    var mid := Run(s, done).after;
    RunCons(mid, item, rest);
    RunAppend(s, done, [item] + rest);
    assert done + [item] + rest == done + ([item] + rest);
  }

  /** The text of a list of text items, in order. */
  function Texts(items: seq<Content>): string
    requires forall i :: 0 <= i < |items| ==> items[i].Text?
  {
    if |items| == 0 then "" else items[0].text + Texts(items[1..])
  }

  /** Text items are copied to the output in order and leave the store
      alone. */
  lemma {:induction false} RunTextOnly(s: Storage, items: seq<Content>)
    requires forall i :: 0 <= i < |items| ==> items[i].Text?
    ensures RunInRange(s, items)
    ensures Run(s, items) == Outcome(Ok(Texts(items)), s)
    decreases |items|
  {
    if |items| > 0 {
      RunTextOnly(s, items[1..]);
      assert items == [items[0]] + items[1..];
      RunCons(s, items[0], items[1..]);
    }
  }

  /** The names that the `let` items of a list create. */
  function LetNames(items: seq<Content>): set<string> {
    set i | 0 <= i < |items| && items[i].Command? && items[i].command.Let? :: items[i].command.name
  }

  /** A run never removes a variable, and only `let` adds one. */
  lemma {:induction false} RunKeys(s: Storage, items: seq<Content>)
    requires RunInRange(s, items)
    ensures s.variables.Keys <= Run(s, items).after.variables.Keys <= s.variables.Keys + LetNames(items)
    decreases |items|
  {
    if |items| > 0 {
      var st := Step(s, items[0]);
      assert items == [items[0]] + items[1..];
      RunCons(s, items[0], items[1..]);
      assert LetNames(items) == LetNames([items[0]]) + LetNames(items[1..]) by {
        LetNamesCons(items);
      }
      if st.result.Ok? {
        RunKeys(st.after, items[1..]);
      }
    }
  }

  lemma LetNamesCons(items: seq<Content>)
    requires |items| > 0
    ensures LetNames(items) == LetNames([items[0]]) + LetNames(items[1..])
  {
    forall n | n in LetNames(items)
      ensures n in LetNames([items[0]]) + LetNames(items[1..])
    {
      var i :| 0 <= i < |items| && items[i].Command? && items[i].command.Let? && items[i].command.name == n;
      if i > 0 {
        assert items[1..][i - 1] == items[i];
      } else {
        assert [items[0]][0] == items[i];
      }
    }
    forall n | n in LetNames(items[1..])
      ensures n in LetNames(items)
    {
      var i :| 0 <= i < |items[1..]| && items[1..][i].Command? && items[1..][i].command.Let? && items[1..][i].command.name == n;
      assert items[i + 1] == items[1..][i];
    }
  }

  // ---------------------------------------------------------------------------
  // The store-threading example
  // ---------------------------------------------------------------------------

  /** An update followed by a `write` of the variable it updates. */
  function Pair(update: Command): seq<Content> {
    [Command(update), Command(Write(update.name))]
  }

  /** `let`, `write`, `add`, `write`, `set`, `write`, `subtract`, `write` on
      one variable. */
  function Session(v: string, a: i32, b: i32, c: i32, d: i32): seq<Content> {
    Pair(Let(v, a)) + (Pair(Add(v, b)) + (Pair(Set(v, c)) + Pair(Subtract(v, d))))
  }

  /** On a fresh store, updating or writing an unknown name fails and leaves
      the store as it was. */
  lemma FreshStoreExamples()
    ensures RunInRange(New(), [Command(Add("", 1))])
    ensures Run(New(), [Command(Add("", 1))]) == Outcome(Err(TriedToModifyNonexistentVariable), New())
    ensures RunInRange(New(), [Command(Write(""))])
    ensures Run(New(), [Command(Write(""))]) == Outcome(Err(TriedToGetNonexistentVariable), New())
  {
  }

  /** An item that succeeds, followed by a run that succeeds. */
  lemma RunConsOk(s: Storage, item: Content, rest: seq<Content>, out: string, mid: Storage, restOut: string)
    requires StepInRange(s, item) && Step(s, item) == Outcome(Ok(out), mid)
    requires RunInRange(mid, rest) && Run(mid, rest).result == Ok(restOut)
    ensures RunInRange(s, [item] + rest)
    ensures Run(s, [item] + rest).result == Ok(out + restOut)
  {
    RunCons(s, item, rest);
  }

  /** A store holding one variable. */
  function Holding(v: string, n: i32): Storage {
    Storage(map[v := n])
  }

  /** Writing a variable the store holds. */
  lemma WriteHolding(v: string, n: i32)
    ensures Step(Holding(v, n), Command(Write(v))) == Outcome(Ok(IntToString(n)), Holding(v, n))
  {
  }

  /** The four updates of the session, each on the store the one before
      leaves. */
  lemma SessionUpdates(v: string, a: i32, b: i32, c: i32, d: i32)
    requires IsI32(a + b) && IsI32(c - d)
    ensures Step(New(), Command(Let(v, a))) == Outcome(Ok(""), Holding(v, a))
    ensures Step(Holding(v, a), Command(Add(v, b))) == Outcome(Ok(""), Holding(v, (a + b) as i32))
    ensures Step(Holding(v, (a + b) as i32), Command(Set(v, c))) == Outcome(Ok(""), Holding(v, c))
    ensures Step(Holding(v, c), Command(Subtract(v, d))) == Outcome(Ok(""), Holding(v, (c - d) as i32))
  {
    assert New().variables[v := a] == Holding(v, a).variables;
    assert Holding(v, a).variables[v := a + b] == Holding(v, (a + b) as i32).variables;
    assert Holding(v, (a + b) as i32).variables[v := c] == Holding(v, c).variables;
    assert Holding(v, c).variables[v := c - d] == Holding(v, (c - d) as i32).variables;
  }

  /** An update that leaves the store holding `n`, then a `write` of it,
      then the rest of a run. */
  lemma UpdateThenWrite(s: Storage, update: Command, n: i32, rest: seq<Content>, restOut: string)
    requires StepInRange(s, Command(update)) && Step(s, Command(update)) == Outcome(Ok(""), Holding(update.name, n))
    requires RunInRange(Holding(update.name, n), rest) && Run(Holding(update.name, n), rest).result == Ok(restOut)
    ensures RunInRange(s, Pair(update) + rest)
    ensures Run(s, Pair(update) + rest).result == Ok(IntToString(n) + restOut)
  {
    var v, w := update.name, Command(Write(update.name));
    WriteHolding(v, n);
    RunConsOk(Holding(v, n), w, rest, IntToString(n), Holding(v, n), restOut);
    RunConsOk(s, Command(update), [w] + rest, "", Holding(v, n), IntToString(n) + restOut);
    assert "" + (IntToString(n) + restOut) == IntToString(n) + restOut;
    assert Pair(update) + rest == [Command(update)] + ([w] + rest);
  }

  /** The last pair of the session. */
  lemma SessionLast(v: string, c: i32, d: i32)
    requires IsI32(c - d)
    ensures RunInRange(Holding(v, c), Pair(Subtract(v, d)))
    ensures Run(Holding(v, c), Pair(Subtract(v, d))).result == Ok(IntToString(c - d))
  {
    var none: seq<Content> := [];
    SessionUpdates(v, 0, 0, c, d);
    UpdateThenWrite(Holding(v, c), Subtract(v, d), (c - d) as i32, none, "");
    assert Pair(Subtract(v, d)) + none == Pair(Subtract(v, d));
    assert IntToString(c - d) + "" == IntToString(c - d);
  }

  lemma SessionFromSet(v: string, n: i32, c: i32, d: i32)
    requires IsI32(c - d)
    ensures RunInRange(Holding(v, n), Pair(Set(v, c)) + Pair(Subtract(v, d)))
    ensures Run(Holding(v, n), Pair(Set(v, c)) + Pair(Subtract(v, d))).result == Ok(IntToString(c) + IntToString(c - d))
  {
    SessionLast(v, c, d);
    SessionUpdates(v, 0, n, c, d);
    UpdateThenWrite(Holding(v, n), Set(v, c), c, Pair(Subtract(v, d)), IntToString(c - d));
  }

  lemma SessionFromAdd(v: string, a: i32, b: i32, c: i32, d: i32)
    requires IsI32(a + b) && IsI32(c - d)
    ensures var rest := Pair(Add(v, b)) + (Pair(Set(v, c)) + Pair(Subtract(v, d)));
            && RunInRange(Holding(v, a), rest)
            && Run(Holding(v, a), rest).result == Ok(IntToString(a + b) + (IntToString(c) + IntToString(c - d)))
  {
    SessionFromSet(v, (a + b) as i32, c, d);
    SessionUpdates(v, a, b, c, d);
    UpdateThenWrite(Holding(v, a), Add(v, b), (a + b) as i32, Pair(Set(v, c)) + Pair(Subtract(v, d)), IntToString(c) + IntToString(c - d));
  }

  /** The whole session on a fresh store writes `a`, `a + b`, `c` and
      `c - d`: each item sees the store the items before it leave. */
  lemma SessionOutput(v: string, a: i32, b: i32, c: i32, d: i32)
    requires IsI32(a + b) && IsI32(c - d)
    ensures RunInRange(New(), Session(v, a, b, c, d))
    ensures Run(New(), Session(v, a, b, c, d)).result
         == Ok(IntToString(a) + (IntToString(a + b) + (IntToString(c) + IntToString(c - d))))
  {
    SessionFromAdd(v, a, b, c, d);
    SessionUpdates(v, a, b, c, d);
    UpdateThenWrite(New(), Let(v, a), a, Pair(Add(v, b)) + (Pair(Set(v, c)) + Pair(Subtract(v, d))),
                    IntToString(a + b) + (IntToString(c) + IntToString(c - d)));
  }

  /** The session with 1, 1, 10 and 5, on `test` or any other name, writes
      `12105`. */
  lemma SessionExample(v: string)
    ensures RunInRange(New(), Session(v, 1, 1, 10, 5))
    ensures Run(New(), Session(v, 1, 1, 10, 5)).result == Ok("12105")
  {
    SessionOutput(v, 1, 1, 10, 5);
    assert IntToString(1) == "1" && IntToString(2) == "2";
    assert IntToString(10) == "10" && IntToString(5) == "5";
    assert "1" + ("2" + ("10" + "5")) == "12105";
  }

  /** A run does not reset the store: `let` on a name created before the
      run fails. */
  lemma LetOnExistingExample(s: Storage)
    ensures var created := Clear(s).CreateVariable("test", 1);
            && created.result == Ok(())
            && RunInRange(created.after, [Command(Let("test", 1))])
            && Run(created.after, [Command(Let("test", 1))]).result == Err(TriedToInitializeExistingVariable)
  {
  }
}

=== FILE: parser.dfy ===
/** Reading a document. `ParseFile` walks the text once, cutting it at every
    `$`: the spans alternate between literal text and command text, starting
    with text. Text spans become `Text` items verbatim; command spans go
    through `ParseCommand`. A document whose last command is never closed is
    an error, and so is the first command span that does not parse. */
module Parser {
  import opened Wrappers
  import opened Decimal
  import opened Strings
  import opened Errors
  import opened Types
  import opened Utf8
  import opened Document

  // ---------------------------------------------------------------------------
  // Commands
  // ---------------------------------------------------------------------------

  /** Keywords taking a name and a number. */
  predicate IsValueKeyword(w: string) {
    w == "let" || w == "add" || w == "subtract" || w == "set"
  }

  /** The arity check: the number of words after the keyword must be the
      expected one. `amount` is at least one wherever this is used. */
  function CheckNumOfArguments(expected: nat, amount: nat): Result<(), ParsingErr> {
    if expected == amount - 1 then Ok(()) else Err(InvalidNumberOfArguments)
  }

  /** The number word of a command, with a parse failure turned into
      `NumberParsing` as `?` does. */
  function ParseValue(word: string): Result<i32, ParsingErr> {
    ParseI32(word).MapErr(FromParseIntError)
  }

  /** One command: split on spaces, check the arity of the keyword, then
      (for the value commands) parse the number. The keyword is matched
      exactly, so `Let` or `sub` are unrecognized. */
  function ParseCommand(input: string): (r: Result<Command, ParsingErr>)
    ensures r.Ok? ==> IsWord(r.value.name)
    ensures |Words(input)| == 0 ==> r == Err(InvalidNumberOfArguments)
  {
    var words := Words(input);
    var amount := |words|;
    if amount == 0 then Err(InvalidNumberOfArguments)
    else if words[0] == "let" then
      var _ :- CheckNumOfArguments(2, amount);
      var v :- ParseValue(words[2]);
      Ok(Let(words[1], v))
    else if words[0] == "add" then
      var _ :- CheckNumOfArguments(2, amount);
      var v :- ParseValue(words[2]);
      Ok(Add(words[1], v))
    else if words[0] == "subtract" then
      var _ :- CheckNumOfArguments(2, amount);
      var v :- ParseValue(words[2]);
      Ok(Subtract(words[1], v))
    else if words[0] == "set" then
      var _ :- CheckNumOfArguments(2, amount);
      var v :- ParseValue(words[2]);
      Ok(Set(words[1], v))
    else if words[0] == "write" then
      var _ :- CheckNumOfArguments(1, amount);
      Ok(Write(words[1]))
    else Err(UnrecognizedCommand(words[0]))
  }

  /** How each kind of failure arises. The arity is checked before the number
      is looked at, and an unknown keyword is reported whatever follows it. */
  lemma ParseCommandErrors(input: string)
    ensures var w := Words(input);
            |w| > 0 && IsValueKeyword(w[0]) && |w| != 3 ==> ParseCommand(input) == Err(InvalidNumberOfArguments)
    ensures var w := Words(input);
            |w| > 0 && w[0] == "write" && |w| != 2 ==> ParseCommand(input) == Err(InvalidNumberOfArguments)
    ensures var w := Words(input);
            |w| == 3 && IsValueKeyword(w[0]) && ParseI32(w[2]).Err? ==>
              ParseCommand(input) == Err(NumberParsing(ParseI32(w[2]).error))
    ensures var w := Words(input);
            |w| > 0 && !IsValueKeyword(w[0]) && w[0] != "write" ==>
              ParseCommand(input) == Err(UnrecognizedCommand(w[0]))
  {
  }

  /** The keyword that introduces each command. */
  function Keyword(c: Command): string {
    match c
    case Let(_, _) => "let"
    case Set(_, _) => "set"
    case Add(_, _) => "add"
    case Subtract(_, _) => "subtract"
    case Write(_) => "write"
  }

  /** The canonical source text of a command: its words separated by single
      spaces, the number in shortest decimal form. */
  function CommandSource(c: Command): string {
    if c.Write? then Join([Keyword(c), c.name], ' ')
    else Join([Keyword(c), c.name, IntToString(c.value)], ' ')
  }

  /** The word shapes a command can take: a value keyword, a name and a
      word that parses as an `i32`; or `write` and a name. */
  predicate WellShaped(w: seq<string>) {
    || (|w| == 3 && IsValueKeyword(w[0]) && ParseI32(w[2]).Ok?)
    || (|w| == 2 && w[0] == "write")
  }

  /** A span parses exactly when its words are well shaped, and then every
      word is accounted for: the keyword, the name and, for value commands,
      a word denoting the value. Whatever the spacing or the spelling of the
      number, the words alone decide the command. */
  lemma ParseCommandSound(input: string)
    ensures ParseCommand(input).Ok? <==> WellShaped(Words(input))
    ensures ParseCommand(input).Ok? ==>
              var c, w := ParseCommand(input).value, Words(input);
              && |w| == (if c.Write? then 2 else 3)
              && w[0] == Keyword(c)
              && w[1] == c.name
              && (!c.Write? ==> ParseI32(w[2]) == Ok(c.value))
  {
  }

  /** Every command with a word for a name is read back from its canonical
      source text. */
  lemma ParseCommandSource(c: Command)
    requires IsWord(c.name)
    ensures ParseCommand(CommandSource(c)) == Ok(c)
  {
    if c.Write? {
      WordsOfJoin([Keyword(c), c.name]);
    } else {
      Types.NoSpaceInNumber(c.value);
      WordsOfJoin([Keyword(c), c.name, IntToString(c.value)]);
      ParseIntToString(c.value);
    }
  }

  /** The document scan with spans cut by character position. */
  function ParseFile(input: string): Result<seq<Content>, ParsingErr> {
    Scan(ParseCommand, CharCuts(input), input, 0, 0, false, [])
  }

  /** The document scan as written: spans are cut at byte offsets equal to
      character counts, which is wrong past the first multi-byte
      character. */
  function ParseFileAsWritten(input: string): Result<seq<Content>, ParsingErr> {
    Scan(ParseCommand, ByteCuts(input), input, 0, 0, false, [])
  }

  /** The scan computes exactly the functional description. */
  lemma ParseFileMeaning(input: string)
    ensures ParseFile(input) == Segments(ParseCommand, input)
  {
    ScanStart(ParseCommand, input);
    ScanComputesSegments(ParseCommand, Segments(ParseCommand, input), CharCuts(input), input, 0, 0, false, []);
  }

  /** On ASCII documents the scan as written is correct. */
  lemma ParseFileAsWrittenOnAscii(input: string)
    requires IsAscii(input)
    ensures ParseFileAsWritten(input) == Segments(ParseCommand, input)
  {
    ScanStart(ParseCommand, input);
    ByteGetterOnAscii(input);
    ScanComputesSegments(ParseCommand, Segments(ParseCommand, input), ByteCuts(input), input, 0, 0, false, []);
  }

  /** A document without `$` is a single text item, or nothing when it is
      empty. */
  lemma ParseFileNoDollar(input: string)
    requires '$' !in input
    ensures ParseFile(input) == if input == "" then Ok([]) else Ok([Text(input)])
  {
    ParseFileMeaning(input);
    SplitOnAbsent(input, '$');
  }

  /** The last span is a command span exactly when the number of `$` is
      odd. */
  lemma LastSpanParity(input: string)
    ensures var spans := SplitOn(input, '$');
            CommandAt(|spans| - 1, false) <==> Count(input, '$') % 2 == 1
  {
    SplitOnCount(input, '$');
  }

  /** A document parses exactly when it has an even number of `$` and every
      command span parses. */
  lemma ParseFileOk(input: string)
    ensures ParseFile(input).Ok?
        <==> Count(input, '$') % 2 == 0 && ClosedCommandsParse(ParseCommand, SplitOn(input, '$'), false)
  {
    ParseFileMeaning(input);
    LastSpanParity(input);
    SegmentOk(ParseCommand, SplitOn(input, '$'), false);
  }

  /** An odd number of `$` leaves the last command open: the document fails,
      and when no command span fails before, the error is
      `CommandLeftOpen`. */
  lemma ParseFileOddDollars(input: string)
    requires Count(input, '$') % 2 == 1
    ensures ParseFile(input).Err?
    ensures ClosedCommandsParse(ParseCommand, SplitOn(input, '$'), false) ==> ParseFile(input) == Err(CommandLeftOpen)
  {
    ParseFileOk(input);
    ParseFileMeaning(input);
    LastSpanParity(input);
    if ClosedCommandsParse(ParseCommand, SplitOn(input, '$'), false) {
      SegmentLeftOpen(ParseCommand, SplitOn(input, '$'), false);
    }
  }

  /** The items of a parsed document. The spans between `$` characters,
      joined back with `$`, are the document; each `$` closes one span and
      yields one item, text and commands alternating from text on, and the
      text after the last `$` is an item only when it is not empty. */
  lemma ParseFileItems(input: string)
    requires ParseFile(input).Ok?
    ensures var spans := SplitOn(input, '$');
            && Join(spans, '$') == input
            && |spans| == Count(input, '$') + 1
            && (forall i :: 0 <= i < |spans| ==> '$' !in spans[i])
    ensures var spans := SplitOn(input, '$');
            var items := ParseFile(input).value;
            var last := spans[|spans| - 1];
            && |items| == Count(input, '$') + (if last == "" then 0 else 1)
            && (last != "" ==> items[|spans| - 1] == Text(last))
            && forall i :: 0 <= i < |spans| - 1 ==>
                 && (i % 2 == 1 ==> ParseCommand(spans[i]).Ok?)
                 && items[i] == SpanItem(ParseCommand, spans[i], i % 2 == 1)
  {
    var spans := SplitOn(input, '$');
    ParseFileMeaning(input);
    JoinSplit(input, '$');
    SplitOnCount(input, '$');
    SplitOnPiecesFree(input, '$');
    SegmentItems(ParseCommand, spans, false);
  }

  /** The first command span that does not parse is the document's error;
      no items are returned. */
  lemma ParseFileFirstError(input: string, k: nat)
    requires var spans := SplitOn(input, '$');
             && k < |spans| - 1 && k % 2 == 1 && ParseCommand(spans[k]).Err?
             && forall i :: 0 <= i < k && i % 2 == 1 ==> ParseCommand(spans[i]).Ok?
    ensures ParseFile(input) == Err(ParseCommand(SplitOn(input, '$')[k]).error)
  {
    ParseFileMeaning(input);
    SegmentFailsAt(ParseCommand, SplitOn(input, '$'), false, k);
  }

  // ---------------------------------------------------------------------------
  // Writing a document back
  // ---------------------------------------------------------------------------

  /** The text a document has between two `$` for an item. */
  function SpanOf(item: Content): string {
    match item
    case Text(t) => t
    case Command(c) => CommandSource(c)
  }

  /** The items as a parse returns them: text and commands alternate from
      text on, text holds no `$`, a command's name is a word without `$`, and
      text at the very end is not empty. */
  predicate Alternating(items: seq<Content>) {
    && (forall i :: 0 <= i < |items| ==> (items[i].Text? <==> i % 2 == 0))
    && (forall i :: 0 <= i < |items| && items[i].Text? ==> '$' !in items[i].text)
    && (forall i :: 0 <= i < |items| && items[i].Command? ==> IsWord(items[i].command.name) && '$' !in items[i].command.name)
    && (|items| % 2 == 1 ==> items[|items| - 1].text != "")
  }

  /** The spans of the document for `items`: one per item, and an empty one
      after a closing `$` at the very end. */
  function SourceSpans(items: seq<Content>): (spans: seq<string>)
    ensures |spans| == |items| + (if |items| % 2 == 0 then 1 else 0)
    ensures forall i :: 0 <= i < |items| ==> spans[i] == SpanOf(items[i])
  {
    seq(|items|, i requires 0 <= i < |items| => SpanOf(items[i])) + (if |items| % 2 == 0 then [""] else [])
  }

  /** The canonical document for a list of items. */
  function DocumentSource(items: seq<Content>): string {
    Join(SourceSpans(items), '$')
  }

  /** A command's canonical source holds no `$` when its name holds none. */
  lemma CommandSourceFree(c: Command)
    requires '$' !in c.name
    ensures '$' !in CommandSource(c)
  {
    if c.Write? {
      JoinAbsent([Keyword(c), c.name], ' ', '$');
    } else {
      NoDollarInNumber(c.value);
      JoinAbsent([Keyword(c), c.name, IntToString(c.value)], ' ', '$');
    }
  }

  lemma NoDollarInNumber(n: int)
    ensures '$' !in IntToString(n)
  {
    var r := IntToString(n);
    forall i | 0 <= i < |r|
      ensures r[i] != '$'
    {
      if i > 0 {
        assert r[1..][i - 1] == r[i];
      }
    }
  }

  /** The spans of the canonical document are exactly its items' spans. */
  lemma SourceSpansSplit(items: seq<Content>)
    requires Alternating(items)
    ensures SplitOn(DocumentSource(items), '$') == SourceSpans(items)
  {
    var spans := SourceSpans(items);
    forall i | 0 <= i < |spans|
      ensures '$' !in spans[i]
    {
      if i < |items| && items[i].Command? {
        CommandSourceFree(items[i].command);
      }
    }
    SplitJoin(spans, '$');
  }

  /** Every command span of the canonical document parses back to its
      command. */
  lemma SourceSpansParse(items: seq<Content>)
    requires Alternating(items)
    ensures forall i :: 0 <= i < |items| && i % 2 == 1 ==>
              ParseCommand(SourceSpans(items)[i]) == Ok(items[i].command)
  {
    forall i | 0 <= i < |items| && i % 2 == 1
      ensures ParseCommand(SourceSpans(items)[i]) == Ok(items[i].command)
    {
      ParseCommandSource(items[i].command);
    }
  }

  /** Parsing the canonical document of well-formed items gives the items
      back. */
  lemma ParseDocumentSource(items: seq<Content>)
    requires Alternating(items)
    ensures ParseFile(DocumentSource(items)) == Ok(items)
  {
    SourceSpansSplit(items);
    SourceSpansParse(items);
    ParseFileMeaning(DocumentSource(items));
    SegmentReadsBack(ParseCommand, SourceSpans(items), items);
  }

  /** Too few words for `let`. */
  lemma LetMissingValue()
    ensures ParseCommand("let a") == Err(InvalidNumberOfArguments)
  {
    WordsOfJoin(["let", "a"]);
    assert Join(["let", "a"], ' ') == "let a";
  }

  /** An unknown keyword is reported with the keyword. */
  lemma UnknownKeyword()
    ensures ParseCommand("another test whatever") == Err(UnrecognizedCommand("another"))
  {
    WordsOfThreeWordLine();
    assert |"another"| == 7;
    assert !IsValueKeyword("another") && "another" != "write";
    ParseCommandErrors("another test whatever");
  }

  /** The unit test's three-word line splits into its three words. */
  lemma WordsOfThreeWordLine()
    ensures Words("another test whatever") == ["another", "test", "whatever"]
  {
    var w := ["another", "test", "whatever"];
    assert w[1..] == ["test", "whatever"];
    assert Join(w[1..], ' ') == "test whatever";
    assert Join(w, ' ') == "another test whatever";
    WordsOfJoin(w);
  }

  /** A document that opens a command at its start and never closes it,
      such as `$unclosed command`, fails with `CommandLeftOpen`. */
  lemma UnclosedCommand(rest: string)
    requires '$' !in rest
    ensures ParseFile("$" + rest) == Err(CommandLeftOpen)
  {
    var s := "$" + rest;
    CountConcat("$", rest, '$');
    CountAbsent(rest, '$');
    assert s[1..] == rest;
    SplitOnAt(s, '$', 0);
    SplitOnAbsent(rest, '$');
    assert SplitOn(s, '$') == ["", rest];
    ParseFileOddDollars(s);
  }

  /** A document that is one two-byte character: the scan as written asks
      for its first byte only, which is not a character boundary, and
      reports `StringOverflow`; the corrected scan keeps the text. */
  lemma AsWrittenSplitsCharacter()
    ensures ParseFileAsWritten("\U{E9}") == Err(StringOverflow)
    ensures ParseFile("\U{E9}") == Ok([Text("\U{E9}")])
  {
    var s := "\U{E9}";
    assert |s| == 1 && s[0] != '$' && s[0..1] == s;
    assert Width(s[0]) == 2;
    assert Boundary(s, 1) == None;
    assert Getter(s, 0, 1) == Ok(s);
    assert CharCuts(s)(0, 1) == Ok(s);
    assert ByteCuts(s)(0, 1) == Err(StringOverflow);
    assert [] + [Text(s)] == [Text(s)];
    assert Scan(ParseCommand, CharCuts(s), s, 1, 0, false, []) == Ok([Text(s)]);
    assert Scan(ParseCommand, ByteCuts(s), s, 1, 0, false, []) == Err(StringOverflow);
  }

  /** A two-byte character followed by one more: the scan as written cuts
      the text one character short, silently. */
  lemma AsWrittenDropsText()
    ensures ParseFileAsWritten("\U{E9}a") == Ok([Text("\U{E9}")])
    ensures ParseFile("\U{E9}a") == Ok([Text("\U{E9}a")])
  {
    var s := "\U{E9}a";
    assert |s| == 2 && s[0] != '$' && s[1] != '$' && s[0..2] == s;
    assert Width(s[0]) == 2;
    assert PrefixBytes(s, 1) == 2;
    assert Boundary(s, 0) == Some(0);
    assert Boundary(s, 2) == Some(1);
    assert s[0..1] == "\U{E9}";
    assert Getter(s, 0, 2) == Ok(s);
    assert ByteGetter(s, 0, 2) == Ok("\U{E9}");
    assert CharCuts(s)(0, 2) == Ok(s);
    assert ByteCuts(s)(0, 2) == Ok("\U{E9}");
    assert [] + [Text(s)] == [Text(s)];
    assert [] + [Text("\U{E9}")] == [Text("\U{E9}")];
    assert Scan(ParseCommand, CharCuts(s), s, 2, 0, false, []) == Ok([Text(s)]);
    assert Scan(ParseCommand, ByteCuts(s), s, 2, 0, false, []) == Ok([Text("\U{E9}")]);
    assert Scan(ParseCommand, CharCuts(s), s, 1, 0, false, []) == Ok([Text(s)]);
    assert Scan(ParseCommand, ByteCuts(s), s, 1, 0, false, []) == Ok([Text("\U{E9}")]);
  }
}

=== FILE: pipeline.dfy ===
/** Parsing a document and running it, one after the other, with the errors
    of either half lifted into the top-level `Error` the way `?` lifts them
    through the `From` conversions. */
module Pipeline {
  import opened Wrappers
  import opened Strings
  import opened Errors
  import opened Types
  import opened Engine
  import opened Document
  import opened Parser
  import opened Interpreter
  import opened Utf8

  /** What processing a document reports, and the store afterwards. */
  datatype Processed = Processed(result: Result<string, Error>, after: Storage)

  /** Whether running the parsed document keeps every `add` and `subtract`
      within `i32`; a document that does not parse runs nothing. */
  predicate ProcessInRange(s: Storage, input: string) {
    ParseFile(input).Ok? ==> RunInRange(s, ParseFile(input).value)
  }

  /** Parse, then run: a parse error is reported as `Parse` and leaves the
      store alone; otherwise the run's output, or its error as `Runtime`,
      with the store the run leaves. */
  function Process(s: Storage, input: string): (p: Processed)
    requires ProcessInRange(s, input)
    ensures ParseFile(input).Err? ==> p == Processed(Err(Parse(ParseFile(input).error)), s)
    ensures ParseFile(input).Ok? ==> p.after == Run(s, ParseFile(input).value).after
    ensures ParseFile(input).Ok? && Run(s, ParseFile(input).value).result.Err? ==>
              p.result == Err(Runtime(Run(s, ParseFile(input).value).result.error))
    ensures p.result.Ok? <==> ParseFile(input).Ok? && Run(s, ParseFile(input).value).result.Ok?
    ensures p.result.Ok? ==> p.result.value == Run(s, ParseFile(input).value).result.value
  {
    match ParseFile(input)
    case Err(e) => Processed(Err(FromParsingErr(e)), s)
    case Ok(items) =>
      var o := Run(s, items);
      Processed(o.result.MapErr(FromRunErr), o.after)
  }

  /** A document without `$` is all text: processing it on any store
      outputs the document itself and leaves the store as it was. */
  lemma DollarFreeDocument(s: Storage, input: string)
    requires '$' !in input
    ensures ProcessInRange(s, input)
    ensures Process(s, input) == Processed(Ok(input), s)
  {
    ParseFileNoDollar(input);
    var items := ParseFile(input).value;
    RunTextOnly(s, items);
    if input != "" {
      assert items[1..] == [];
      assert Texts(items) == input + "" == input;
    }
  }

  /** A document whose only `$` opens a command never runs anything: it is
      reported as a parse error and the store is untouched. */
  lemma UnclosedCommandReported(s: Storage, rest: string)
    requires '$' !in rest
    ensures ProcessInRange(s, "$" + rest)
    ensures Process(s, "$" + rest) == Processed(Err(Parse(CommandLeftOpen)), s)
  {
    UnclosedCommand(rest);
  }

  // ---------------------------------------------------------------------------
  // The pipeline as written
  // ---------------------------------------------------------------------------

  /** Whether running the document, parsed by the scan as written, keeps
      every `add` and `subtract` within `i32`. */
  predicate ProcessAsWrittenInRange(s: Storage, input: string) {
    ParseFileAsWritten(input).Ok? ==> RunInRange(s, ParseFileAsWritten(input).value)
  }

  /** Parse with the scan as written (byte-offset cuts), then run. */
  function ProcessAsWritten(s: Storage, input: string): (p: Processed)
    requires ProcessAsWrittenInRange(s, input)
    ensures ParseFileAsWritten(input).Err? ==> p == Processed(Err(Parse(ParseFileAsWritten(input).error)), s)
    ensures ParseFileAsWritten(input).Ok? ==> p.after == Run(s, ParseFileAsWritten(input).value).after
    ensures ParseFileAsWritten(input).Ok? && Run(s, ParseFileAsWritten(input).value).result.Err? ==>
              p.result == Err(Runtime(Run(s, ParseFileAsWritten(input).value).result.error))
    ensures p.result.Ok? <==> ParseFileAsWritten(input).Ok? && Run(s, ParseFileAsWritten(input).value).result.Ok?
    ensures p.result.Ok? ==> p.result.value == Run(s, ParseFileAsWritten(input).value).result.value
  {
    match ParseFileAsWritten(input)
    case Err(e) => Processed(Err(FromParsingErr(e)), s)
    case Ok(items) =>
      var o := Run(s, items);
      Processed(o.result.MapErr(FromRunErr), o.after)
  }

  /** On ASCII documents the pipeline as written is `Process`: everything
      proved about `Process` holds of the program itself there. */
  lemma ProcessAsWrittenOnAscii(s: Storage, input: string)
    requires IsAscii(input)
    ensures ProcessAsWrittenInRange(s, input) <==> ProcessInRange(s, input)
    ensures ProcessInRange(s, input) ==> ProcessAsWritten(s, input) == Process(s, input)
  {
    ParseFileAsWrittenOnAscii(input);
    ParseFileMeaning(input);
  }

  /** An ASCII document without `$` is output unchanged by the program, on
      any store. */
  lemma AsciiDollarFreeDocument(s: Storage, input: string)
    requires IsAscii(input) && '$' !in input
    ensures ProcessAsWrittenInRange(s, input)
    ensures ProcessAsWritten(s, input) == Processed(Ok(input), s)
  {
    DollarFreeDocument(s, input);
    ProcessAsWrittenOnAscii(s, input);
  }

  /** Beyond ASCII they differ: the one-character document `é` is reported
      by the program as a parse error, though it holds no `$`. */
  lemma AsWrittenRejectsCharacter(s: Storage)
    ensures ProcessAsWrittenInRange(s, "\U{E9}")
    ensures ProcessAsWritten(s, "\U{E9}") == Processed(Err(Parse(StringOverflow)), s)
    ensures Process(s, "\U{E9}") == Processed(Ok("\U{E9}"), s)
  {
    AsWrittenSplitsCharacter();
    DollarFreeDocument(s, "\U{E9}");
  }
}

=== FILE: strings.dfy ===
/** Splitting text at a separator character, the reverse join, and Rust's
    `split(' ').filter(|w| !w.is_empty())` word split. The document segmenter
    splits at `$` and the command parser splits at a space; both are stated
    in terms of `SplitOn`. */
module Strings {

  /** Number of occurrences of `c` in `s`. */
  function Count(s: string, c: char): nat {
    if |s| == 0 then 0 else (if s[0] == c then 1 else 0) + Count(s[1..], c)
  }

  lemma {:induction false} CountConcat(a: string, b: string, c: char)
    ensures Count(a + b, c) == Count(a, c) + Count(b, c)
  {
    if |a| == 0 {
      assert a + b == b;
    } else {
      assert (a + b)[0] == a[0];
      assert (a + b)[1..] == a[1..] + b;
      CountConcat(a[1..], b, c);
    }
  }

  lemma {:induction false} CountAbsent(s: string, c: char)
    requires c !in s
    ensures Count(s, c) == 0
  {
    if |s| > 0 {
      assert c !in s[1..];
      CountAbsent(s[1..], c);
    }
  }

  /** Position of the first `c` in `s`, or `|s|` when there is none. */
  function Find(s: string, c: char): (i: nat)
    ensures i <= |s|
    ensures i < |s| ==> s[i] == c
  {
    if |s| == 0 then 0
    else if s[0] == c then 0
    else 1 + Find(s[1..], c)
  }

  /** `Find` stops at the first occurrence. */
  lemma {:induction false} FindFirst(s: string, c: char)
    ensures forall j :: 0 <= j < Find(s, c) ==> s[j] != c
  {
    if |s| > 0 && s[0] != c {
      FindFirst(s[1..], c);
    }
  }

  /** `Find` reaches the end exactly when `c` does not occur. */
  lemma FindAbsent(s: string, c: char)
    ensures Find(s, c) == |s| <==> c !in s
  {
    FindFirst(s, c);
  }

  /** `Find` returns any position before which `c` does not occur and at
      which it does. */
  lemma {:induction false} FindAt(s: string, c: char, k: nat)
    requires k <= |s| && (k < |s| ==> s[k] == c)
    requires forall j :: 0 <= j < k ==> s[j] != c
    ensures Find(s, c) == k
  {
    if k > 0 {
      FindAt(s[1..], c, k - 1);
    }
  }

  /** Rust's `str::split` with a single-character pattern: the maximal pieces
      between occurrences of `sep`, including empty ones at either end and
      between adjacent separators. */
  function SplitOn(s: string, sep: char): (pieces: seq<string>)
    ensures |pieces| >= 1
    decreases |s|
  {
    var i := Find(s, sep);
    if i == |s| then [s] else [s[..i]] + SplitOn(s[i + 1..], sep)
  }

  /** No piece holds a separator: the split is maximal. */
  lemma {:induction false} SplitOnPiecesFree(s: string, sep: char)
    ensures forall i :: 0 <= i < |SplitOn(s, sep)| ==> sep !in SplitOn(s, sep)[i]
    decreases |s|
  {
    var i := Find(s, sep);
    FindFirst(s, sep);
    if i < |s| {
      SplitOnPiecesFree(s[i + 1..], sep);
    }
  }

  /** The pieces joined back together with `sep` between neighbours. */
  function Join(pieces: seq<string>, sep: char): string
    requires |pieces| >= 1
  {
    if |pieces| == 1 then pieces[0] else pieces[0] + [sep] + Join(pieces[1..], sep)
  }

  /** Splitting at a known first separator: the piece in front of it comes
      first, followed by the split of everything behind it. */
  lemma SplitOnAt(s: string, sep: char, k: nat)
    requires k < |s| && s[k] == sep
    requires forall j :: 0 <= j < k ==> s[j] != sep
    ensures SplitOn(s, sep) == [s[..k]] + SplitOn(s[k + 1..], sep)
  {
    FindAt(s, sep, k);
  }

  /** Text without the separator is a single piece. */
  lemma SplitOnAbsent(s: string, sep: char)
    requires sep !in s
    ensures SplitOn(s, sep) == [s]
  {
    FindAbsent(s, sep);
  }

  /** The pieces of a split, joined with the separator, give back the text:
      splitting loses no character and invents none. */
  lemma {:induction false} JoinSplit(s: string, sep: char)
    ensures Join(SplitOn(s, sep), sep) == s
    decreases |s|
  {
    var i := Find(s, sep);
    if i < |s| {
      JoinSplit(s[i + 1..], sep);
      assert s == s[..i] + [sep] + s[i + 1..];
    }
  }

  /** Conversely, separator-free pieces are recovered by splitting their join. */
  lemma {:induction false} SplitJoin(pieces: seq<string>, sep: char)
    requires |pieces| >= 1
    requires forall i :: 0 <= i < |pieces| ==> sep !in pieces[i]
    ensures SplitOn(Join(pieces, sep), sep) == pieces
  {
    if |pieces| > 1 {
      var rest := Join(pieces[1..], sep);
      var s := pieces[0] + [sep] + rest;
      var k := |pieces[0]|;
      assert s[..k] == pieces[0];
      assert s[k + 1..] == rest;
      assert forall j :: 0 <= j < k ==> s[j] == pieces[0][j];
      SplitOnAt(s, sep, k);
      SplitJoin(pieces[1..], sep);
    }
  }

  /** Joining pieces that lack a character other than the separator gives
      text that lacks it too. */
  lemma {:induction false} JoinAbsent(pieces: seq<string>, sep: char, c: char)
    requires |pieces| >= 1 && c != sep
    requires forall i :: 0 <= i < |pieces| ==> c !in pieces[i]
    ensures c !in Join(pieces, sep)
  {
    if |pieces| > 1 {
      JoinAbsent(pieces[1..], sep, c);
      assert pieces[1..][0] == pieces[1];
    }
  }

  /** A split yields one more piece than there are separators. */
  lemma {:induction false} SplitOnCount(s: string, sep: char)
    ensures |SplitOn(s, sep)| == Count(s, sep) + 1
    decreases |s|
  {
    var i := Find(s, sep);
    FindFirst(s, sep);
    if i == |s| {
      CountAbsent(s, sep);
    } else {
      SplitOnCount(s[i + 1..], sep);
      assert s == s[..i] + ([sep] + s[i + 1..]);
      CountConcat(s[..i], [sep] + s[i + 1..], sep);
      CountConcat([sep], s[i + 1..], sep);
      CountAbsent(s[..i], sep);
    }
  }

  /** The non-empty pieces, in order. */
  function NonEmpty(pieces: seq<string>): (r: seq<string>)
    ensures |r| <= |pieces|
    ensures forall i :: 0 <= i < |r| ==> |r[i]| > 0
  {
    if |pieces| == 0 then []
    else if |pieces[0]| == 0 then NonEmpty(pieces[1..])
    else [pieces[0]] + NonEmpty(pieces[1..])
  }

  lemma {:induction false} NonEmptyContents(pieces: seq<string>)
    ensures forall w :: w in NonEmpty(pieces) <==> w in pieces && |w| > 0
  {
    if |pieces| > 0 {
      NonEmptyContents(pieces[1..]);
      assert pieces == [pieces[0]] + pieces[1..];
    }
  }

  /** Filtering a concatenation filters each part: the kept pieces stay in
      their order, each as often as it occurs. */
  lemma {:induction false} NonEmptyConcat(a: seq<string>, b: seq<string>)
    ensures NonEmpty(a + b) == NonEmpty(a) + NonEmpty(b)
  {
    if |a| > 0 {
      assert (a + b)[1..] == a[1..] + b;
      NonEmptyConcat(a[1..], b);
    } else {
      assert a + b == b;
    }
  }

  /** A single piece is kept exactly when it is non-empty. */
  lemma NonEmptySingle(w: string)
    ensures NonEmpty([w]) == if |w| > 0 then [w] else []
  {
  }

  lemma {:induction false} NonEmptyKeepsNonEmpty(pieces: seq<string>)
    requires forall i :: 0 <= i < |pieces| ==> |pieces[i]| > 0
    ensures NonEmpty(pieces) == pieces
  {
    if |pieces| > 0 {
      NonEmptyKeepsNonEmpty(pieces[1..]);
    }
  }

  /** The words of `s`: `s.split(' ')` with the empty words dropped. Only the
      space character separates words; tabs and newlines stay inside them. */
  function Words(s: string): (words: seq<string>)
    ensures forall i :: 0 <= i < |words| ==> |words[i]| > 0 && ' ' !in words[i]
  {
    NonEmptyContents(SplitOn(s, ' '));
    SplitOnPiecesFree(s, ' ');
    NonEmpty(SplitOn(s, ' '))
  }

  predicate IsWord(w: string) {
    |w| > 0 && ' ' !in w
  }

  /** Words joined with single spaces split back into the same words. */
  lemma WordsOfJoin(words: seq<string>)
    requires |words| >= 1
    requires forall i :: 0 <= i < |words| ==> IsWord(words[i])
    ensures Words(Join(words, ' ')) == words
  {
    SplitJoin(words, ' ');
    NonEmptyKeepsNonEmpty(words);
  }

  /** Text without any space has no words exactly when it is empty. */
  lemma WordsOfSpaceFree(s: string)
    requires ' ' !in s
    ensures Words(s) == if s == "" then [] else [s]
  {
    SplitOnAbsent(s, ' ');
  }
}

=== FILE: types.dfy ===
/** The parsed form of a document: an ordered list of `Content` items, each
    either literal text or a command, and the debugging rendering of both. */
module Types {
  import opened Decimal
  import opened Strings

  datatype Command =
    | Let(name: string, value: i32)
    | Set(name: string, value: i32)
    | Add(name: string, value: i32)
    | Subtract(name: string, value: i32)
    | Write(name: string)

  datatype Content = Text(text: string) | Command(command: Command)

  const CommandOpen := "[Command] "
  const CommandClose := " |"

  /** The words of a command's description, in the order they are printed;
      note that `Add` and `Subtract` print the value before the name. */
  function DescriptionWords(c: Command): seq<string> {
    match c
    case Let(name, v) => ["Let", name, "be", IntToString(v)]
    case Set(name, v) => ["Set", name, "to", "be", IntToString(v)]
    case Add(name, v) => ["Add", IntToString(v), "to", name]
    case Subtract(name, v) => ["Subtract", IntToString(v), "from", name]
    case Write(name) => ["Write", "the", "variable", name]
  }

  /** The description inside the command frame: its words, space separated. */
  function Describe(c: Command): string {
    Join(DescriptionWords(c), ' ')
  }

  function CommandDisplay(c: Command): string {
    CommandOpen + Describe(c) + CommandClose
  }

  function ContentDisplay(item: Content): string {
    match item
    case Text(t) => t
    case Command(c) => CommandDisplay(c)
  }

  /** The rendering of each command, spelled out. */
  lemma CommandDisplayFormats(c: Command)
    ensures c.Let? ==> Describe(c) == "Let " + c.name + " be " + IntToString(c.value)
    ensures c.Set? ==> Describe(c) == "Set " + c.name + " to be " + IntToString(c.value)
    ensures c.Add? ==> Describe(c) == "Add " + IntToString(c.value) + " to " + c.name
    ensures c.Subtract? ==> Describe(c) == "Subtract " + IntToString(c.value) + " from " + c.name
    ensures c.Write? ==> Describe(c) == "Write the variable " + c.name
    ensures CommandDisplay(c) == "[Command] " + Describe(c) + " |"
  {
    match c
    case Let(n, v) => LetFormat(n, IntToString(v));
    case Set(n, v) => SetFormat(n, IntToString(v));
    case Add(n, v) => AddFormat(n, IntToString(v));
    case Subtract(n, v) => SubtractFormat(n, IntToString(v));
    case Write(n) => WriteFormat(n);
  }

  lemma LetFormat(n: string, v: string)
    ensures Join(["Let", n, "be", v], ' ') == "Let " + n + " be " + v
  {
    JoinFour("Let", n, "be", v);
    assert "Let" + " " == "Let ";
    assert " " + "be" + " " == " be ";
  }

  lemma SetFormat(n: string, v: string)
    ensures Join(["Set", n, "to", "be", v], ' ') == "Set " + n + " to be " + v
  {
    JoinFive("Set", n, "to", "be", v);
    assert "Set" + " " == "Set ";
    assert " " + "to" + " " + "be" + " " == " to be ";
  }

  lemma AddFormat(n: string, v: string)
    ensures Join(["Add", v, "to", n], ' ') == "Add " + v + " to " + n
  {
    JoinFour("Add", v, "to", n);
    assert "Add" + " " == "Add ";
    assert " " + "to" + " " == " to ";
  }

  lemma SubtractFormat(n: string, v: string)
    ensures Join(["Subtract", v, "from", n], ' ') == "Subtract " + v + " from " + n
  {
    JoinFour("Subtract", v, "from", n);
    assert "Subtract" + " " == "Subtract ";
    assert " " + "from" + " " == " from ";
  }

  lemma WriteFormat(n: string)
    ensures Join(["Write", "the", "variable", n], ' ') == "Write the variable " + n
  {
    JoinFour("Write", "the", "variable", n);
    assert "Write" + " " + "the" + " " + "variable" + " " == "Write the variable ";
  }

  lemma JoinFour(a: string, b: string, c: string, d: string)
    ensures Join([a, b, c, d], ' ') == a + " " + b + " " + c + " " + d
  {
    assert [a, b, c, d][1..] == [b, c, d];
    assert [b, c, d][1..] == [c, d];
    assert [c, d][1..] == [d];
    assert Join([c, d], ' ') == c + " " + d;
    assert Join([b, c, d], ' ') == b + " " + (c + " " + d);
    assert Join([a, b, c, d], ' ') == a + " " + (b + " " + (c + " " + d));
  }

  lemma JoinFive(a: string, b: string, c: string, d: string, e: string)
    ensures Join([a, b, c, d, e], ' ') == a + " " + b + " " + c + " " + d + " " + e
  {
    assert [a, b, c, d, e][1..] == [b, c, d, e];
    JoinFour(b, c, d, e);
    assert Join([a, b, c, d, e], ' ') == a + " " + (b + " " + c + " " + d + " " + e);
  }

  /** Text renders as itself; a command renders inside the `[Command] ... |`
      frame. */
  lemma ContentDisplayShape(item: Content)
    ensures item.Text? ==> ContentDisplay(item) == item.text
    ensures item.Command? ==> HasFrame(ContentDisplay(item))
  {
  }

  predicate HasFrame(s: string) {
    && |s| >= |CommandOpen| + |CommandClose|
    && s[..|CommandOpen|] == CommandOpen
    && s[|s| - |CommandClose|..] == CommandClose
  }

  lemma NoSpaceInNumber(n: int)
    ensures ' ' !in IntToString(n)
  {
  }

  predicate SpaceFreeWords(ws: seq<string>) {
    forall i :: 0 <= i < |ws| ==> ' ' !in ws[i]
  }

  lemma DescriptionWordsSpaceFree(c: Command)
    requires ' ' !in c.name
    ensures |DescriptionWords(c)| >= 1 && SpaceFreeWords(DescriptionWords(c))
  {
    if !c.Write? {
      NoSpaceInNumber(c.value);
    }
  }

  /** Different commands render differently, as long as their variable names
      contain no space (which holds for every command the parser produces). */
  lemma CommandDisplayInjective(a: Command, b: Command)
    requires ' ' !in a.name && ' ' !in b.name
    requires CommandDisplay(a) == CommandDisplay(b)
    ensures a == b
  {
    var d := CommandDisplay(a);
    assert Describe(a) == d[|CommandOpen|..|d| - |CommandClose|];
    assert Describe(b) == d[|CommandOpen|..|d| - |CommandClose|];
    DescriptionWordsSpaceFree(a);
    DescriptionWordsSpaceFree(b);
    SplitJoin(DescriptionWords(a), ' ');
    SplitJoin(DescriptionWords(b), ' ');
    var wa, wb := DescriptionWords(a), DescriptionWords(b);
    assert wa == wb;
    assert wa[0] == wb[0];
    if a.Let? || a.Set? || a.Add? || a.Subtract? {
      IntToStringInjective(a.value, b.value);
    }
  }
}

=== FILE: utf8.dfy ===
/** Rust strings are UTF-8 bytes, and `str::get(a..b)` takes BYTE offsets:
    it returns a slice only when both offsets fall on character boundaries.
    A string is modelled here as its characters; the byte offset of each
    character boundary is computed from the UTF-8 width of the characters
    before it. */
module Utf8 {
  import opened Wrappers

  /** The number of bytes UTF-8 uses for a character. */
  function Width(c: char): (w: nat)
    ensures 1 <= w <= 4
    ensures w == 1 <==> c as int < 0x80
  {
    if c as int < 0x80 then 1
    else if c as int < 0x800 then 2
    else if c as int < 0x1_0000 then 3
    else 4
  }

  /** The byte offset of the boundary before character `k`. */
  function PrefixBytes(s: string, k: nat): nat
    requires k <= |s|
  {
    if k == 0 then 0 else PrefixBytes(s, k - 1) + Width(s[k - 1])
  }

  /** Later boundaries lie at strictly larger byte offsets. */
  lemma {:induction false} PrefixBytesIncreasing(s: string, i: nat, j: nat)
    requires i < j <= |s|
    ensures PrefixBytes(s, i) < PrefixBytes(s, j)
    decreases j - i
  {
    if i + 1 < j {
      PrefixBytesIncreasing(s, i, j - 1);
    }
  }

  /** The character index whose boundary lies at byte offset `a`, searching
      from character `k` on. */
  function BoundaryFrom(s: string, a: nat, k: nat): (r: Option<nat>)
    requires k <= |s|
    ensures r.Some? ==> k <= r.value <= |s| && PrefixBytes(s, r.value) == a
    decreases |s| - k
  {
    if PrefixBytes(s, k) == a then Some(k)
    else if PrefixBytes(s, k) > a || k == |s| then None
    else BoundaryFrom(s, a, k + 1)
  }

  /** `str::is_char_boundary`, returning the character index of the
      boundary. */
  function Boundary(s: string, a: nat): Option<nat> {
    BoundaryFrom(s, a, 0)
  }

  /** Nothing is missed: a byte offset that is some boundary is found. */
  lemma {:induction false} BoundaryFromFinds(s: string, a: nat, k: nat, m: nat)
    requires k <= m <= |s| && PrefixBytes(s, m) == a
    ensures BoundaryFrom(s, a, k) == Some(m)
    decreases |s| - k
  {
    if k < m {
      PrefixBytesIncreasing(s, k, m);
      BoundaryFromFinds(s, a, k + 1, m);
    }
  }

  /** `Boundary` answers exactly the question "is `a` a character boundary,
      and of which character". */
  lemma BoundaryIff(s: string, a: nat, m: nat)
    requires m <= |s|
    ensures Boundary(s, a) == Some(m) <==> PrefixBytes(s, m) == a
  {
    if PrefixBytes(s, m) == a {
      BoundaryFromFinds(s, a, 0, m);
    }
  }

  /** Boundaries come in the same order as their byte offsets. */
  lemma BoundaryMonotone(s: string, a: nat, b: nat)
    requires a <= b && Boundary(s, a).Some? && Boundary(s, b).Some?
    ensures Boundary(s, a).value <= Boundary(s, b).value
  {
    var i, j := Boundary(s, a).value, Boundary(s, b).value;
    if j < i {
      PrefixBytesIncreasing(s, j, i);
    }
  }

  /** Rust's `str::get(a..b)` on byte offsets. */
  function Get(s: string, a: nat, b: nat): (r: Option<string>)
    ensures r.Some? <==> a <= b && Boundary(s, a).Some? && Boundary(s, b).Some?
    ensures r.Some? ==> && Boundary(s, a).value <= Boundary(s, b).value
                        && r.value == s[Boundary(s, a).value..Boundary(s, b).value]
  {
    if a <= b && Boundary(s, a).Some? && Boundary(s, b).Some? then
      BoundaryMonotone(s, a, b);
      Some(s[Boundary(s, a).value..Boundary(s, b).value])
    else None
  }

  predicate IsAscii(s: string) {
    forall i :: 0 <= i < |s| ==> s[i] as int < 0x80
  }

  /** On ASCII text every byte is a character. */
  lemma {:induction false} AsciiPrefixBytes(s: string, k: nat)
    requires IsAscii(s) && k <= |s|
    ensures PrefixBytes(s, k) == k
  {
    if k > 0 {
      AsciiPrefixBytes(s, k - 1);
    }
  }

  /** On ASCII text byte offsets and character offsets agree, so `get`
      fails only when the range runs backwards or past the end. */
  lemma AsciiGet(s: string, a: nat, b: nat)
    requires IsAscii(s)
    ensures Get(s, a, b) == if a <= b <= |s| then Some(s[a..b]) else None
  {
    if a <= |s| {
      AsciiPrefixBytes(s, a);
      BoundaryIff(s, a, a);
    }
    if b <= |s| {
      AsciiPrefixBytes(s, b);
      BoundaryIff(s, b, b);
    } else if Boundary(s, b).Some? {
      var m := Boundary(s, b).value;
      AsciiPrefixBytes(s, m);
    }
  }
}

=== FILE: util.dfy ===
/** The generic "modify an existing entry" helper: update the value under a
    key that is present, or report the caller's error when it is absent. */
module Util {
  import opened Wrappers

  /** What a call reports, and the map as the caller sees it afterwards. */
  datatype Modified<K, V, E> = Modified(result: Result<(), E>, after: map<K, V>)

  /** `func` is partial: it only has to be defined at the stored value. */
  function ModifyVariable<K, V, E>(m: map<K, V>, key: K, func: V --> V, err: E): (r: Modified<K, V, E>)
    requires key in m ==> func.requires(m[key])
    ensures r.after.Keys == m.Keys
    ensures key in m ==> r.result == Ok(()) && r.after[key] == func(m[key])
    ensures key !in m ==> r.result == Err(err) && r.after == m
    ensures forall k :: k in m && k != key ==> r.after[k] == m[k]
  {
    if key in m then Modified(Ok(()), m[key := func(m[key])]) else Modified(Err(err), m)
  }
}

=== FILE: wrappers.dfy ===
/** Rust's `Option` and `Result`. Every fallible operation of the templating
    engine returns a `Result` instead of panicking; it is failure-compatible,
    so `:-` propagates an `Err` the way Rust's `?` does. */
module Wrappers {

  datatype Option<+T> = None | Some(value: T)

  datatype Result<+T, +E> = Ok(value: T) | Err(error: E) {

    predicate IsFailure() {
      Err?
    }

    function PropagateFailure<U>(): Result<U, E>
      requires Err?
    {
      Err(error)
    }

    function Extract(): T
      requires Ok?
    {
      value
    }

    /** Rust's `map_err`: rewraps the error, keeps a success untouched. */
    function MapErr<F>(f: E -> F): Result<T, F>
    {
      match this
      case Ok(v) => Ok(v)
      case Err(e) => Err(f(e))
    }
  }
}
